=== FILE: README.md ===
# Bilingual Bible reader: a Dafny model of its client logic and backend lookups

The application shows a Ukrainian and an English Bible side by side. A React
client and an Express backend make it up. Verse texts can carry Strong's
markers such as `<H7225>`, which the reader turns into clickable dictionary
codes. A study panel looks those codes up. A search modal, a map page with
journeys and a distance tool, a notes library and a sidebar of books
complete the client. The backend answers the login, the book list, chapter
text and dictionary lookups.

This project models the logic of those pieces as pure functions over
immutable datatypes, one module per source file:

- `StrongsMarkup` is the verse-text tokenizer. It covers the capturing split
  on `<[HG]\d+>`, the classification of parts, and the bracket stripping.
  Laws proved about it:
  - the render-and-unrender round trip;
  - the uniqueness of the rendering;
  - the alternation of plain text and references.

  `StrongsExamples` gives concrete vectors, both well-formed and malformed.
- `Reader` covers the version defaults, the right-column pairing in the
  compare view, the "add to notes" line and the verse-note toggle.
- `SearchModal` covers the query guard, the request, and the merge of a
  response into the previous results. It also covers which categories are
  shown, the per-type title/meta/snippet, click dispatch and closing.
- `MapUtils` covers:
  - walking days;
  - the journey source and layer ids;
  - adding and removing a journey from the map style;
  - the dash-array animation step;
  - the `flyTo` option merge.

  `MapSuite` covers the location filter, selecting a location, the journey
  toggle and the distance tool.
- `StudyPanel` covers the dictionary lookup with its code normalisation, the
  consumption of a code sent by the reader, and the save-to-library guards.
- `NotesLibrary` covers select, new, edit and cancel, save as POST or PUT
  with prepend or replace, and delete.
- `Sidebar` covers the version that names the books, the book toggle, the
  automatic expansion of the active book, and the chapter buttons.
- `App` covers:
  - the theme toggle;
  - the verse-notes array-to-map conversion;
  - login and sync;
  - appending to the study pad;
  - verse-note updates;
  - the navigation callbacks.
- `Server` covers:
  - the login decision;
  - the case-insensitive dictionary lookup;
  - the version, book, chapter lookup chain with its 404 order;
  - the book list with ascending chapter numbers.

  These are modelled over in-memory maps and sequences in place of the
  database.
- `JsText` holds the JavaScript string operations the model relies on:
  `toLowerCase`, `toUpperCase`, `includes`, `trim`, `parseInt` and number
  formatting. `JsArray` holds `find` by a number field, which also stands
  for the database's `findFirst` on a number column. `Opt` is an option
  type.

Modelling conventions:

- `null`/`undefined` become `None`, and JavaScript truthiness is spelled out
  where the code tests it. An empty array is truthy; `0` and `""` are falsy.
- Object spread becomes map or field override. A present key always wins.
- `find` returns the first match.
- A distance is a whole number of tenths of a kilometre. This matches the
  rounding of the great-circle distance to one decimal
  (frontend/src/utils/mapUtils.js:106).

## Model

| member | source | states |
|---|---|---|
| StrongsMarkup.Split | frontend/src/components/Reader.jsx:161 | the capturing split alternates marker-free text and whole `<[HG]\d+>` markers, starting and ending with text, and the parts concatenate back to the input |
| StrongsMarkup.SplitUnique | frontend/src/components/Reader.jsx:161 | any alternating marker-free/marker decomposition of a string is exactly the split of that string |
| StrongsMarkup.MarkerLen | frontend/src/components/Reader.jsx:161 | a positive length is a marker at the start of the string, never longer than the string |
| StrongsMarkup.MarkerLenUnique | frontend/src/components/Reader.jsx:161 | a marker that starts the string is the one measured: no other prefix of it is a marker |
| StrongsMarkup.SplitCons | frontend/src/components/Reader.jsx:161 | marker-free text followed by a marker splits into that text, that marker and the split of the rest |
| StrongsMarkup.FindMarker | frontend/src/components/Reader.jsx:161 | the split cuts at the leftmost position where a marker starts, or nowhere |
| StrongsMarkup.Classify | frontend/src/components/Reader.jsx:163-165 | a part becomes a reference iff it matches `^<[HG]\d+>$`; the code is the part without its brackets and is a letter `H`/`G` followed by digits; any other part stays plain text unchanged |
| StrongsMarkup.StripMarker | frontend/src/components/Reader.jsx:165 | removing every `<` and `>` from a marker leaves exactly its inner code |
| StrongsMarkup.RenderVerseText | frontend/src/components/Reader.jsx:158-189 | empty text renders to no segments; otherwise segments alternate plain/reference (references at odd positions), plain segments contain no marker, reference codes are well formed, and re-emitting references as `<code>` reproduces the text |
| StrongsMarkup.RenderUnique | frontend/src/components/Reader.jsx:158-189 | the rendering is the only well-formed segment list that reproduces the text |
| StrongsMarkup.PlainTextRendersWhole | frontend/src/components/Reader.jsx:161 | text without `<` is a single plain segment |
| StrongsMarkup.RenderConsOf | frontend/src/components/Reader.jsx:161-165 | text, a marker and a non-empty rest render as plain, reference, then the rendering of the rest |
| StrongsMarkup.RenderEndsWithMarker | frontend/src/components/Reader.jsx:161 | a trailing marker leaves an empty final plain part, as a capturing split does |
| StrongsMarkup.OpenOnlyAtStart | frontend/src/components/Reader.jsx:161 | a `<` that does not start a marker, with no other `<`, leaves the text marker-free |
| StrongsMarkup.RenderTag | frontend/src/components/Reader.jsx:158-189 | text tagged like the seed verses (words with codes between them) renders to exactly its words and codes in order |
| StrongsMarkup.UnrenderTagged | frontend/src/components/Reader.jsx:161 | the tagged segments re-emit the tagged text |
| StrongsExamples.GenesisOpening | backend/prisma/seed.js:141 | the start of the tagged Genesis 1:1 renders as `In `, reference `H7225`, ` the beginning` |
| StrongsExamples.OneMarker | frontend/src/components/Reader.jsx:161-165 | one well-formed marker between `<`-free texts gives plain, reference, plain |
| StrongsExamples.LowerCaseLetterStaysPlain | frontend/src/components/Reader.jsx:161 | `<h12>` is not a marker and stays plain text |
| StrongsExamples.NoDigitsStaysPlain | frontend/src/components/Reader.jsx:161 | `<H>` stays plain text |
| StrongsExamples.UnclosedStaysPlain | frontend/src/components/Reader.jsx:161 | `<H12` stays plain text |
| StrongsExamples.OtherLetterStaysPlain | frontend/src/components/Reader.jsx:161 | `<X1>` stays plain text |
| StrongsExamples.StrayOpenBeforeMarker | frontend/src/components/Reader.jsx:161 | in `<<G1>` the first `<` is text and the marker still splits off |
| StrongsExamples.EmptyRendersNothing | frontend/src/components/Reader.jsx:159 | empty text renders nothing |
| Reader.InitialVersions | frontend/src/components/Reader.jsx:20-22 | no versions are known yet; UBIO is on the left and KJV on the right |
| Reader.VersionsLoaded | frontend/src/components/Reader.jsx:29-57 | an array answer becomes the version list and puts UBIO left for `ua` and KJV left otherwise, the other version on the right; an invalid answer or a failure empties the list and keeps the columns |
| Reader.LanguageSwapsColumns | frontend/src/components/Reader.jsx:42-48 | switching between `ua` and another language swaps the two columns |
| JsArray.FindKey | frontend/src/components/Reader.jsx:272 | `find` by number: the first element with that number, or none iff no element has it |
| JsArray.FindEveryKey | frontend/src/components/Reader.jsx:272 | with distinct numbers, every element is the one found for its own number |
| JsText.ParseIntNeedsDigit | backend/server.js:90 | `parseInt` gives a number only for text that contains a digit |
| JsText.ParseIntDigits | backend/server.js:95 | an optional minus sign, decimal digits and a rest that starts with neither a digit nor `x` parse to the signed value of the digits, the rest ignored |
| JsText.ParseIntOfDecimal | backend/server.js:90 | every integer printed in decimal parses back to itself |
| Reader.RightCell | frontend/src/components/Reader.jsx:272-289 | the placeholder `...` is shown iff the right chapter is missing or has no verse with that number; otherwise the first verse with that number, as `find` returns it, is rendered |
| Reader.CompareRows | frontend/src/components/Reader.jsx:270-292 | one row per left verse, in order, each pairing the left text rendered into well-formed segments that re-emit it (empty text giving none) with the right cell for its number |
| Reader.SelfCompare | frontend/src/components/Reader.jsx:272 | comparing a chapter with distinct verse numbers against itself puts each verse's own rendered text in its row's right cell |
| Reader.NoteLine | frontend/src/components/Reader.jsx:129 | the note line is exactly `[`, the verse number in decimal, `] ` and then the verse text, and the number reads back as the verse number |
| Reader.NoteLineDetermines | frontend/src/components/Reader.jsx:129 | equal note lines come from verses with the same number and text |
| Reader.ToggleVerseNote | frontend/src/components/Reader.jsx:136 | the editor closes iff the clicked verse's was open; otherwise the clicked verse's opens |
| Reader.ToggleTwice | frontend/src/components/Reader.jsx:136 | clicking twice restores a closed or own editor, and closes another verse's |
| Reader.ToggleShowsOneEditor | frontend/src/components/Reader.jsx:136 | after a click the clicked verse's editor is shown iff it was hidden, and no other verse's is shown |
| SearchModal.InitialState | frontend/src/components/SearchModal.jsx:19-24 | the modal starts with an empty query, the `all` tab and no results |
| SearchModal.OnQueryChange | frontend/src/components/SearchModal.jsx:27-38 | a query shorter than two characters clears all four lists and sends nothing; a longer one sends the query with the tab as scope and the email only when present and non-empty |
| SearchModal.Merge | frontend/src/components/SearchModal.jsx:41-52 | a response with no truthy category leaves the results; otherwise each key present in the response replaces its list, a key that is `null` or not an array leaves no list, and each absent key keeps its list |
| SearchModal.NoResultsMessage | frontend/src/components/SearchModal.jsx:180-184 | "No results found." is shown iff nothing is loading, the query has at least two characters and all four categories are empty or missing |
| SearchModal.HitHidesMessage | frontend/src/components/SearchModal.jsx:72 | a response with a non-empty list in a category makes that category have results, which hides the no-results message |
| SearchModal.MergeIdempotent | frontend/src/components/SearchModal.jsx:44-48 | merging the same response twice equals merging it once |
| SearchModal.FullResponseReplaces | frontend/src/components/SearchModal.jsx:44-48 | a response with all four arrays replaces every list |
| SearchModal.NullNeedsCompany | frontend/src/components/SearchModal.jsx:44-48 | a response whose only key is `null` is ignored, while a `null` next to a truthy key overwrites its list |
| SearchModal.Sections | frontend/src/components/SearchModal.jsx:173-178 | a category is rendered iff not loading, the query has two or more characters, it has results, and the tab is `all` or that category |
| SearchModal.PanelContents | frontend/src/components/SearchModal.jsx:173-184 | with all lists empty only "no results" shows; the panel is blank iff some category has results but the tab hides them all |
| SearchModal.Title | frontend/src/components/SearchModal.jsx:113-117 | the title is the reference, headword, name, `Note on ` + reference or title by item type |
| SearchModal.Meta | frontend/src/components/SearchModal.jsx:120-122 | the meta is the version, code, `Map` or `Note` by item type |
| SearchModal.Snippet | frontend/src/components/SearchModal.jsx:126-129 | the snippet is the text, definition, description or preview by item type |
| SearchModal.VerseAndNoteDiffer | frontend/src/components/SearchModal.jsx:113-122 | a verse and a note on the same reference differ in title and meta |
| SearchModal.Click | frontend/src/components/SearchModal.jsx:86-108 | verse and verse-note items navigate iff the book number is truthy; dictionary opens the code and study notes open the library only when the handler exists; maps alert; the modal closes iff a callback other than the alert ran |
| SearchModal.Close | frontend/src/components/SearchModal.jsx:19-24 | closing empties the query and all four lists |
| SearchModal.ClosedIsQuiet | frontend/src/components/SearchModal.jsx:19-31 | after closing, the guard sends nothing and neither sections nor "no results" are shown |
| MapUtils.WalkingDays | frontend/src/utils/mapUtils.js:118-121 | days are the ceiling of the distance over 30 km: `d·30 ≥ km`, `(d−1)·30 < km` for positive distances, and zero days iff zero distance |
| MapUtils.JourneyIdsDistinct | frontend/src/utils/mapUtils.js:261-263 | the four ids derived from a journey id are distinct from each other and from another journey's |
| MapUtils.DecimalInjective | frontend/src/utils/mapUtils.js:261 | different journey ids print differently |
| MapUtils.AddJourney | frontend/src/utils/mapUtils.js:258-326 | an existing source leaves the style unchanged; otherwise the journey's sources and layers are added and nothing is removed |
| MapUtils.RemoveJourney | frontend/src/utils/mapUtils.js:369-378 | exactly the journey's two sources and two layers are removed |
| MapUtils.AddIdempotent | frontend/src/utils/mapUtils.js:266 | adding a journey twice equals adding it once |
| MapUtils.RemoveUndoesAdd | frontend/src/utils/mapUtils.js:258-378 | removing a journey just added to a style free of it gives the style back |
| MapUtils.RemoveKeepsOthers | frontend/src/utils/mapUtils.js:369-378 | removing one journey does not affect whether another is shown |
| MapUtils.NextStep | frontend/src/utils/mapUtils.js:351-356 | the step stays below 14 and advances by one, wrapping to 0 |
| MapUtils.Animate | frontend/src/utils/mapUtils.js:353-361 | frame `i` paints dash pattern `(i+1) mod 14`, and the animation stops at the first frame whose layer is gone |
| MapUtils.TicksFromZero | frontend/src/utils/mapUtils.js:351-356 | after `k` ticks from the initial step 0, the step is `k mod 14`, so the dash pattern cycles through all 14 patterns in order |
| MapUtils.FlyToParams | frontend/src/utils/mapUtils.js:12-23 | every key given in options wins; absent keys take the defaults center, zoom 12, bearing 0, pitch 0, duration 2000 and essential |
| MapUtils.ZoomFallback | frontend/src/utils/mapUtils.js:15-23 | the zoom and bearing are the options' when given, even a falsy `0`, and the defaults otherwise |
| MapSuite.Filter | frontend/src/components/BibleMapSuite.jsx:187-191 | a location is kept iff its name or Ukrainian name contains the query case-insensitively |
| MapSuite.FilterIsSubsequence | frontend/src/components/BibleMapSuite.jsx:187 | the results keep the order of the location list |
| MapSuite.SearchIgnoresCase | frontend/src/components/BibleMapSuite.jsx:188-189 | queries equal up to case give the same results |
| MapSuite.HandleSearch | frontend/src/components/BibleMapSuite.jsx:180-194 | the query is kept; under two characters the results are empty, otherwise exactly the matching locations |
| MapSuite.SelectLocation | frontend/src/components/BibleMapSuite.jsx:196-201 | the location is selected, query and results are cleared, and the camera flies to it with zoom 12 |
| MapSuite.SelectJourney | frontend/src/components/BibleMapSuite.jsx:204-224 | null or the active journey clears the selection and removes its layers; another journey becomes active |
| MapSuite.SelectKeepsStyle | frontend/src/components/BibleMapSuite.jsx:204-224 | the style stays the base style plus exactly the active journey |
| MapSuite.SelectTwiceClears | frontend/src/components/BibleMapSuite.jsx:204-224 | selecting a journey twice returns to no journey and the base style |
| MapSuite.ClickPoint | frontend/src/components/BibleMapSuite.jsx:233-239 | a click gives one or two points ending with the click; two exactly when there was one, keeping it first |
| MapSuite.ToggleDistanceMode | frontend/src/components/BibleMapSuite.jsx:359-361 | the mode flips and the points are cleared |
| MapSuite.Measure | frontend/src/components/BibleMapSuite.jsx:250-253 | a distance is computed iff there are two points; walking days iff the distance is non-zero |
| MapSuite.ReadoutView | frontend/src/components/BibleMapSuite.jsx:370-375 | no distance renders nothing, a distance of 0 renders a bare `0` (the falsy number `&&` yields), and any other distance renders the box with that distance and the days |
| MapSuite.BoxShownIffApart | frontend/src/components/BibleMapSuite.jsx:370-375 | the distance box appears iff two points were measured at a non-zero distance, showing that distance and at least one day; two points at distance 0 show only `0` |
| MapSuite.TwoClicksMeasure | frontend/src/components/BibleMapSuite.jsx:233-253 | two clicks measure between them and a third hides the readout |
| StudyPanel.Normalize | frontend/src/components/StudyPanel.jsx:29 | a term with a `[HG]\d+` prefix, in either case, is kept; any other gets `H` in front |
| StudyPanel.NormalizeStable | frontend/src/components/StudyPanel.jsx:29 | normalising twice changes nothing iff the first result has a code prefix, which holds for prefixed terms and terms starting with a digit |
| StudyPanel.NormalizeExamples | frontend/src/components/StudyPanel.jsx:29 | `7225` becomes `H7225`; `g746` is kept |
| StudyPanel.MarkerCodeLooksUpItself | frontend/src/components/StudyPanel.jsx:29 | a code from a marker survives normalisation and the server's upper-casing |
| StudyPanel.RequestAsWritten | frontend/src/components/StudyPanel.jsx:151-155 | as wired, the button throws before any request; Enter and external codes send nothing iff the term is empty, else the normalised code |
| StudyPanel.SearchAsWritten | frontend/src/components/StudyPanel.jsx:23-46 | as wired, the button leaves the panel unchanged; Enter and external codes find an entry iff the upper-cased normalised term is in the dictionary |
| StudyPanel.RequestFor | frontend/src/components/StudyPanel.jsx:23-29 | nothing is sent iff the term is empty; otherwise the normalised code |
| StudyPanel.Answer | frontend/src/components/StudyPanel.jsx:31-40 | a found entry is shown, and an external lookup also sets the search box to the code and opens the dictionary tab; a non-OK answer clears the entry |
| StudyPanel.Search | frontend/src/components/StudyPanel.jsx:23-46 | an empty term changes nothing; otherwise an entry is shown iff the upper-cased normalised term is in the dictionary, and it is that entry |
| StudyPanel.SearchButtonIgnored | frontend/src/components/StudyPanel.jsx:155 | as wired, the button leaves the panel unchanged; corrected, it finds an entry that exists |
| StudyPanel.SearchButtonCounterexample | frontend/src/components/StudyPanel.jsx:155 | with `H7225` in the dictionary and `7225` typed, the button finds nothing as wired and the entry when corrected |
| StudyPanel.OnlyTheButtonDiffers | frontend/src/components/StudyPanel.jsx:151-155 | Enter and external lookups behave the same in both wirings |
| StudyPanel.ConsumeExternal | frontend/src/components/StudyPanel.jsx:49-54 | a non-empty external code is looked up and then cleared; none or an empty one does nothing |
| StudyPanel.ConsumedOnce | frontend/src/components/StudyPanel.jsx:49-54 | running the effect again after consumption does nothing |
| StudyPanel.MarkerCodeOpensEntry | frontend/src/components/StudyPanel.jsx:34-53 | a marker's code found in the dictionary opens its entry on the dictionary tab with the code in the search box |
| StudyPanel.SaveToLibrary | frontend/src/components/StudyPanel.jsx:72-95 | a request is made iff the pad is present and not all whitespace and the title prompt gave a non-empty title; it carries the email, the title and the untrimmed pad |
| NotesLibrary.SelectNote | frontend/src/components/NotesLibrary.jsx:14-17 | the note is selected and not being edited |
| NotesLibrary.NewNote | frontend/src/components/NotesLibrary.jsx:19-24 | a draft with id `new`, empty title and content is selected and edited with an empty editor |
| NotesLibrary.Edit | frontend/src/components/NotesLibrary.jsx:26-30 | the editor gets the selected note's title and content |
| NotesLibrary.Cancel | frontend/src/components/NotesLibrary.jsx:32-37 | editing stops; the selection is cleared iff it was the draft |
| NotesLibrary.NewThenCancel | frontend/src/components/NotesLibrary.jsx:19-37 | a new note cancelled leaves no selection and the list untouched |
| NotesLibrary.SaveRequestFor | frontend/src/components/NotesLibrary.jsx:40-53 | the request is a POST to the collection iff the selection is the draft, else a PUT to the collection path plus the note id, with the editor's title and content |
| NotesLibrary.ReplaceById | frontend/src/components/NotesLibrary.jsx:60 | same length; each note with the saved id becomes the saved note, the others stay in place |
| NotesLibrary.SaveReplacesOnlyThatNote | frontend/src/components/NotesLibrary.jsx:60 | with the id listed once, saving replaces exactly that entry |
| NotesLibrary.Saved | frontend/src/components/NotesLibrary.jsx:55-64 | a non-OK or failed save changes nothing; otherwise a draft's note is prepended, a stored note replaces its id, it becomes the selection and editing stops |
| NotesLibrary.SaveDraftPrepends | frontend/src/components/NotesLibrary.jsx:58 | after saving a draft the list grows by one, the note heads it and the old list is the tail |
| NotesLibrary.RemoveById | frontend/src/components/NotesLibrary.jsx:80 | a note remains iff it was listed and has another id |
| NotesLibrary.DeleteClick | frontend/src/components/NotesLibrary.jsx:71-73 | the delete dialog opens and the notes, selection and editing state stay as they were |
| NotesLibrary.ConfirmDelete | frontend/src/components/NotesLibrary.jsx:75-87 | after the delete request, whatever its status, notes with the selected id are dropped, the selection cleared and the dialog closed; a request that throws changes nothing |
| NotesLibrary.RemoveKeepsOrder | frontend/src/components/NotesLibrary.jsx:80 | deletion works piecewise on any split of the list, so the others keep their order |
| NotesLibrary.RemoveAbsent | frontend/src/components/NotesLibrary.jsx:80 | deleting an id not listed changes nothing |
| NotesLibrary.SaveThenDelete | frontend/src/components/NotesLibrary.jsx:58-80 | deleting a just-saved draft with a fresh id restores the list |
| Sidebar.VersionForNames | frontend/src/components/Sidebar.jsx:21 | book names come from UBIO iff the language is `ua`, else from KJV |
| Sidebar.BookClick | frontend/src/components/Sidebar.jsx:54-56 | the clicked book is expanded iff it was not the expanded one; otherwise all collapse |
| Sidebar.BookClickTwice | frontend/src/components/Sidebar.jsx:54-56 | clicking a book twice restores the expansion |
| Sidebar.BookClickMoves | frontend/src/components/Sidebar.jsx:54-56 | clicking a second book moves the expansion to it |
| Sidebar.AutoExpand | frontend/src/components/Sidebar.jsx:48-52 | when a book has the active number, the first such book is expanded; otherwise the expansion is unchanged |
| Sidebar.AutoExpandIdempotent | frontend/src/components/Sidebar.jsx:48-52 | re-running the effect changes nothing |
| Sidebar.BooksLoaded | frontend/src/components/Sidebar.jsx:23-45 | an array answer becomes the list and, for a truthy active book, expands it as the effect does; an invalid answer or a failure empties the list |
| Sidebar.BooksForLanguage | frontend/src/components/Sidebar.jsx:26 | the names come from the books route for the language's version, one summary per stored book |
| Sidebar.ChapterClick | frontend/src/components/Sidebar.jsx:111-116 | a chapter button navigates to its book's number and chapter, and is highlighted iff that is the active book and chapter |
| Sidebar.OneChapterHighlighted | frontend/src/components/Sidebar.jsx:116 | with distinct book and chapter numbers at most one chapter button is highlighted |
| Sidebar.NavigateKeepsBookOpen | frontend/src/components/Sidebar.jsx:48-52 | after navigating from a chapter button, the effect keeps that book expanded |
| App.ToggleTheme | frontend/src/App.jsx:77-79 | `light` becomes `dark`, anything else `light` |
| App.ThemeInvolution | frontend/src/App.jsx:77-79 | the toggle is an involution on `light` and `dark` and always lands on one of them |
| App.NotesMap | frontend/src/App.jsx:62-63 | the last row's verse maps to its text |
| App.NotesMapKeys | frontend/src/App.jsx:61-65 | the map's keys are exactly the verses with a note |
| App.NotesMapLast | frontend/src/App.jsx:61-65 | each verse maps to the text of its last note |
| App.LastNoteWins | frontend/src/App.jsx:63 | of two notes on one verse the later is kept |
| App.Initial | frontend/src/App.jsx:15-42 | the app starts dark, on the dashboard, at Genesis 1, with empty pad, notes and library |
| App.ApplyUserData | frontend/src/App.jsx:58-69 | `handleLogin`'s data: a truthy pad replaces the pad; a notes array replaces the verse-notes map by its conversion; a study-notes array replaces the library; the rest is kept |
| App.SyncUserData | frontend/src/App.jsx:117-126 | the sync's answer: a truthy pad replaces the pad; notes that are a truthy non-array throw in `forEach`, so only the pad changes; otherwise a notes array replaces the verse-notes map and a study-notes array replaces the library |
| App.AsLoginData | frontend/src/App.jsx:61-69 | the data `handleLogin` keeps from an answer: exactly its array fields and the pad |
| App.SyncMatchesLogin | frontend/src/App.jsx:58-126 | the sync applies an answer as `handleLogin` would, except that truthy non-array notes stop it after the pad |
| App.HandleLogin | frontend/src/App.jsx:54-70 | the user is stored with the token passed (none when the caller passes none) and the login data applied |
| App.SyncAfterLoginIsStable | frontend/src/App.jsx:113-126 | a sync returning the data the login was handed changes nothing |
| App.LoginSubmit | frontend/src/components/LoginPage.jsx:36-37 | a successful server login stores the user's email and name without a token, since only the user is passed on; a failed login changes nothing |
| App.LoginThenSync | frontend/src/App.jsx:113-126 | the sync after a successful login equals a login handed the fetched arrays and pad (only the pad when the notes are a truthy non-array), and the token stays absent |
| App.AddVerseToNotes | frontend/src/App.jsx:81-85 | an empty pad becomes the verse; otherwise the old pad is a prefix, the four characters `\n\n` follow, and the verse is the suffix; the dashboard shows with the study panel expanded |
| App.AddedVerseReadsBack | frontend/src/App.jsx:82 | a note line added to an empty pad reads back the verse number |
| App.UpdateVerseNote | frontend/src/App.jsx:100-110 | only that verse's entry changes, to the note; a request is sent iff a user is logged in |
| App.UpdateIsAppend | frontend/src/App.jsx:101 | updating a loaded map equals loading the notes with this one appended |
| App.SidebarNavigate | frontend/src/App.jsx:202-206 | the book and chapter are set; the sidebar collapses below 768 pixels and is otherwise unchanged |
| App.StrongClick | frontend/src/App.jsx:226-229 | the code becomes the dictionary code and the study panel expands |
| App.SearchCallback | frontend/src/App.jsx:269-283 | navigation sets book, chapter and the dashboard; a dictionary code opens on the dashboard with the panel expanded; a study note opens the library page |
| App.VerseResultNavigates | frontend/src/App.jsx:269-273 | clicking a verse result with a book shows its chapter on the dashboard |
| App.NoteSaved | frontend/src/App.jsx:243 | a note saved from the study panel heads the library, the old list following |
| App.ExternalCodeClear | frontend/src/App.jsx:240 | the dictionary code is cleared |
| App.MarkerOpensDictionary | frontend/src/App.jsx:226-229 | a rendered marker's code that is in the dictionary, once clicked, opens its entry in the study panel, which then clears the code |
| Server.Login | backend/server.js:13-46 | success iff the email's user exists and the password matches, returning email, name and token but not the password; otherwise 401; a missing email is 500 |
| Server.LoginHidesPassword | backend/server.js:25-32 | a successful answer does not depend on the password's value |
| Server.LoginFailuresAlike | backend/server.js:33-38 | an unknown email and a wrong password get the same answer |
| Server.Dictionary | backend/server.js:111-122 | the entry under the upper-cased code, or 404 |
| Server.DictionaryIgnoresCase | backend/server.js:115 | codes equal up to case get the same answer |
| Server.SortBy | backend/server.js:68 | the `orderBy number asc` result is sorted by number and is a permutation of the input |
| Server.SortSortedIsIdentity | backend/server.js:96 | sorting an already sorted list changes nothing |
| Server.GetChapter | backend/server.js:81-108 | an unknown version is 404; a book or chapter number that is not a 32-bit integer is 500; otherwise the first book and then the first chapter with that number are looked up, a missing one is 404 with its own message, and a found chapter answers its book's name, its number and exactly its verses sorted ascending |
| Server.PathNumber | backend/server.js:90 | a path segment gives a number iff `parseInt` reads one and it fits the 32-bit integer column, and then it is that number |
| Server.WideBookNumberFails | backend/server.js:89-106 | a book number outside the 32-bit range makes the query fail and the route answer 500 |
| Server.ExistingChapterServed | backend/server.js:81-104 | an existing chapter whose book and chapter numbers fit 32 bits, requested by its printed numbers, is served |
| Server.Summary | backend/server.js:64-69 | a book's summary keeps id, number and name and lists its chapter numbers ascending |
| Server.GetBooks | backend/server.js:58-79 | an unknown version is 404; otherwise one summary per book, in order |

## Left out

- Network requests, `useEffect` scheduling, debouncing, `localStorage`, `alert`/`prompt` and console logging. Each handler's state change is modelled with the response as a parameter. The title prompt is an `Option`.
- The great-circle distance, `toRad` and coordinate formatting use floating point. The distance is a parameter in tenths of a kilometre.
- Mapbox, jsPDF, ReactQuill and the DOM: markers, popups, pulse animation, `fitBounds`, image and PDF export.
- The camera's easing function is left out. `FlyToParams` carries the data keys only.
- The search, notes, library, study-pad and Strong's endpoints of the backend are not part of this model. Their routes are not defined in backend/server.js.
- The seed and maintenance scripts, settings and the confirmation dialog. Of the login page, its form and its Google/Apple buttons are left out; only its submit (App.LoginSubmit) is modelled.
- Database failures other than those named are left out. A non-numeric book or chapter number, and one outside the 32-bit integer column, are taken to make the database query throw, which is answered with 500.
- JsText.ParseInt: reads digits as an exact unbounded integer, while JavaScript rounds past 2^53. Such numbers are already outside the 32-bit column, so the chapter route answers 500 either way.
- MapUtils.FlyToParams: the spread `...options` may also carry keys other than the modelled ones; the model covers any key set but only the listed defaults.
- App.SyncUserData: truthy study notes that are not an array are stored as the library by the source; the library is a list of notes here, so the model keeps the old library.
- SearchModal.Merge: keys of the response other than the four categories are ignored. A category holding a truthy non-array value, such as a non-empty string, is modelled as no list; in the source `hasResults` is then true and rendering throws on `.map`.
- JsText.Lower and JsText.Upper map ASCII and the basic Cyrillic block (with Ґ/ґ) only, not full Unicode casing.
- SearchModal.OnQueryChange and MapSuite.HandleSearch count characters, not UTF-16 code units. The two differ only outside the Basic Multilingual Plane.
- Server.Dictionary: the code is looked up as it reaches the route. URL encoding and decoding is left out.
- StrongsExamples.GenesisOpening: only the opening of the tagged Genesis 1:1 is checked as a literal. Long literal strings are costly to unfold, so the whole tagged verse is covered by the general StrongsMarkup.RenderTag.
- App.NotesMap: object keys are modelled as verse ids, not as their string forms.
- Sidebar: the collapse button and the four page buttons only call the app's setters, and their effects are plain field updates. The `onLanguageChange` and `onThemeToggle` props are received but never used by the sidebar.
- Login keeps no session. The server returns a mock token, but the login page passes only the user to `handleLogin`, so no token is stored. `handleLogout` only clears the user and is not modelled.

## Findings

| source | as written | input that shows it | evidently intended | confidence | as-written member | corrected member |
|---|---|---|---|---|---|---|
| frontend/src/components/StudyPanel.jsx:155 | `onClick={handleSearch}` passes the click event as `codeToSearch`. The event is truthy, so it becomes the term, and `term.match` throws. The error is caught and no request is sent. | The search box holds `7225`, the dictionary has `H7225`, and the user clicks the search button: no entry is shown. | The button searches the box's term like the Enter key (`handleSearch()`). | not executed | StudyPanel.SearchAsWritten (StudyPanel.SearchButtonCounterexample) | StudyPanel.Search (StudyPanel.SearchButtonIgnored, StudyPanel.OnlyTheButtonDiffers) |

=== FILE: app_state.dfy ===
/** The application shell: the theme, the study pad, the verse notes map,
    the notes library list, the active book and chapter, and the callbacks
    through which the sidebar, the reader, the search modal and the study
    panel change them. Requests to the backend and `localStorage` are left
    out; the handlers' state changes are modelled. */
module App {
  import opened Opt
  import StrongsMarkup
  import Reader
  import SearchModal
  import StudyPanel
  import NotesLibrary
  import Server
  import JsText

  // ---------------------------------------------------------------------
  // Theme
  // ---------------------------------------------------------------------

  const InitialTheme := "dark"

  /** `toggleTheme`: `light` becomes `dark`, anything else `light`. */
  function ToggleTheme(theme: string): (r: string)
    ensures r == "dark" <==> theme == "light"
    ensures r == "light" <==> theme != "light"
  {
    if theme == "light" then "dark" else "light"
  }

  /** On the two themes the toggle is an involution; any other value is
      brought back to `light` by the first toggle. */
  lemma ThemeInvolution(theme: string)
    ensures theme == "light" || theme == "dark" ==> ToggleTheme(ToggleTheme(theme)) == theme
    ensures ToggleTheme(theme) in {"light", "dark"}
  {
  }

  // ---------------------------------------------------------------------
  // Verse notes
  // ---------------------------------------------------------------------

  /** A verse note as the backend lists it. */
  datatype NoteRow = NoteRow(verseId: int, text: string)

  /** Row `i` is the last one for its verse. */
  predicate LastFor(notes: seq<NoteRow>, i: nat)
    requires i < |notes|
  {
    forall j :: i < j < |notes| ==> notes[j].verseId != notes[i].verseId
  }

  /** `notes.forEach(n => { notesMap[n.verseId] = n.text; })`, one row
      after the other. */
  function NotesMap(notes: seq<NoteRow>): (m: map<int, string>)
    ensures notes != [] ==> notes[|notes| - 1].verseId in m && m[notes[|notes| - 1].verseId] == notes[|notes| - 1].text
    decreases |notes|
  {
    if notes == [] then map[]
    else NotesMap(notes[..|notes| - 1])[notes[|notes| - 1].verseId := notes[|notes| - 1].text]
  }

  /** The keys of the map are exactly the verses that have a row. */
  lemma {:induction false} NotesMapKeys(notes: seq<NoteRow>)
    ensures forall k :: k in NotesMap(notes) <==> exists i :: 0 <= i < |notes| && notes[i].verseId == k
    decreases |notes|
  {
    if notes != [] {
      var init := notes[..|notes| - 1];
      NotesMapKeys(init);
      assert forall i :: 0 <= i < |init| ==> init[i] == notes[i];
      forall k | k in NotesMap(notes)
        ensures exists i :: 0 <= i < |notes| && notes[i].verseId == k
      {
        if k != notes[|notes| - 1].verseId {
          assert k in NotesMap(init);
          var i :| 0 <= i < |init| && init[i].verseId == k;
          assert notes[i].verseId == k;
        }
      }
    }
  }

  /** Each verse maps to the text of its last row: the last note wins. */
  lemma {:induction false} NotesMapLast(notes: seq<NoteRow>, i: nat)
    requires i < |notes| && LastFor(notes, i)
    ensures notes[i].verseId in NotesMap(notes) && NotesMap(notes)[notes[i].verseId] == notes[i].text
    decreases |notes|
  {
    if i < |notes| - 1 {
      var init := notes[..|notes| - 1];
      assert init[i] == notes[i];
      assert LastFor(init, i) by {
        forall j | i < j < |init| ensures init[j].verseId != init[i].verseId {
          assert init[j] == notes[j];
        }
      }
      NotesMapLast(init, i);
      assert notes[|notes| - 1].verseId != notes[i].verseId;
    }
  }

  /** When a verse has two notes, the later one is kept. */
  lemma LastNoteWins(a: NoteRow, b: NoteRow)
    requires a.verseId == b.verseId
    ensures NotesMap([a, b]) == map[a.verseId := b.text]
  {
    assert [a, b][..1] == [a];
    assert [a][..0] == [];
    assert NotesMap([a]) == map[a.verseId := a.text];
  }

  /** The app's state, without the parts owned by the child components. */
  datatype Page = Dashboard | Library | Settings

  /** The stored user: `{...userData, token}`, where `token` is `None` when
      the caller passed none (`undefined`). */
  datatype User = User(email: string, name: string, token: Option<string>)

  datatype State = State(
    theme: string,
    user: Option<User>,
    studyPad: string,
    verseNotes: map<int, string>,
    library: seq<NotesLibrary.Note>,
    page: Page,
    activeBook: int,
    activeChapter: int,
    sidebarCollapsed: bool,
    studyPanelCollapsed: bool,
    dictionaryCode: Option<string>)

  function Initial(user: Option<User>): (s: State)
    ensures s.theme == InitialTheme && s.page == Dashboard
    ensures s.activeBook == 1 && s.activeChapter == 1
    ensures s.studyPad == "" && s.verseNotes == map[] && s.library == [] && s.dictionaryCode.None?
  {
    State(InitialTheme, user, "", map[], [], Dashboard, 1, 1, false, false, None)
  }

  /** The user data handed to `handleLogin`: `None` is an absent, null or
      non-array field, all of which its `Array.isArray` guards skip; the
      study pad is used only when truthy. */
  datatype UserData = UserData(studyPad: Option<string>, notes: Option<seq<NoteRow>>,
                               studyNotes: Option<seq<NotesLibrary.Note>>)

  /** `handleLogin`'s `if (studyPad) …`, `if (notes && Array.isArray(notes)) …`,
      `if (studyNotes && Array.isArray(studyNotes)) …`. */
  function ApplyUserData(s: State, d: UserData): (r: State)
    ensures r.studyPad == if d.studyPad.Some? && d.studyPad.value != "" then d.studyPad.value else s.studyPad
    ensures d.notes.Some? ==> r.verseNotes == NotesMap(d.notes.value)
    ensures d.notes.None? ==> r.verseNotes == s.verseNotes
    ensures r.library == if d.studyNotes.Some? then d.studyNotes.value else s.library
    ensures r.user == s.user && r.page == s.page && r.activeBook == s.activeBook
  {
    var s1 := if d.studyPad.Some? && d.studyPad.value != "" then s.(studyPad := d.studyPad.value) else s;
    var s2 := if d.notes.Some? then s1.(verseNotes := NotesMap(d.notes.value)) else s1;
    if d.studyNotes.Some? then s2.(library := d.studyNotes.value) else s2
  }

  /** `handleLogin`: the user is stored with the token passed, then the
      data passed is applied. */
  function HandleLogin(s: State, email: string, name: string, token: Option<string>, d: UserData): (r: State)
    ensures r.user == Some(User(email, name, token))
    ensures r == ApplyUserData(s.(user := Some(User(email, name, token))), d)
  {
    ApplyUserData(s.(user := Some(User(email, name, token))), d)
  }

  /** A list field of the sync's answer as its bare `if (data.x)` sees
      it: falsy (absent or null), an array, or some other truthy value. */
  datatype Field<T> = Falsy | List(items: seq<T>) | NonList

  /** The answer of `GET /api/user/:email` as the sync effect reads it. */
  datatype SyncData = SyncData(studyPad: Option<string>, notes: Field<NoteRow>,
                               studyNotes: Field<NotesLibrary.Note>)

  /** The sync effect's `then`: the pad is set when truthy; truthy notes
      are walked with `forEach`, which throws on a non-array, so the
      rejection is caught after the pad was set and nothing later runs;
      truthy study notes replace the library. */
  function SyncUserData(s: State, d: SyncData): (r: State)
    ensures r.studyPad == if d.studyPad.Some? && d.studyPad.value != "" then d.studyPad.value else s.studyPad
    ensures d.notes.NonList? ==> r == s.(studyPad := r.studyPad)
    ensures d.notes.List? ==> r.verseNotes == NotesMap(d.notes.items)
    ensures d.notes.Falsy? ==> r.verseNotes == s.verseNotes
    ensures !d.notes.NonList? ==> r.library == if d.studyNotes.List? then d.studyNotes.items else s.library
    ensures r.user == s.user && r.page == s.page && r.activeBook == s.activeBook
  {
    var s1 := if d.studyPad.Some? && d.studyPad.value != "" then s.(studyPad := d.studyPad.value) else s;
    match d.notes
    case NonList => s1
    case Falsy => StoreStudyNotes(s1, d.studyNotes)
    case List(rows) => StoreStudyNotes(s1.(verseNotes := NotesMap(rows)), d.studyNotes)
  }

  /** The sync's last step: truthy study notes replace the library. */
  function StoreStudyNotes(s: State, f: Field<NotesLibrary.Note>): State {
    match f
    case List(notes) => s.(library := notes)
    case _ => s
  }

  /** The data `handleLogin` would apply for a sync answer: arrays are
      kept, anything else is skipped. */
  function AsLoginData(d: SyncData): (u: UserData)
    ensures u.studyPad == d.studyPad
    ensures u.notes.Some? <==> d.notes.List?
    ensures u.studyNotes.Some? <==> d.studyNotes.List?
  {
    UserData(d.studyPad,
             if d.notes.List? then Some(d.notes.items) else None,
             if d.studyNotes.List? then Some(d.studyNotes.items) else None)
  }

  /** The sync and `handleLogin` agree on every answer whose notes are not
      a truthy non-array; with such notes the sync stops after the pad. */
  lemma SyncMatchesLogin(s: State, d: SyncData)
    ensures !d.notes.NonList? ==> SyncUserData(s, d) == ApplyUserData(s, AsLoginData(d))
    ensures d.notes.NonList? ==> SyncUserData(s, d) == ApplyUserData(s, UserData(d.studyPad, None, None))
  {
  }

  /** A sync that returns what the login was handed changes nothing. */
  lemma SyncAfterLoginIsStable(s: State, email: string, name: string, token: Option<string>, d: SyncData)
    ensures SyncUserData(HandleLogin(s, email, name, token, AsLoginData(d)), d)
         == HandleLogin(s, email, name, token, AsLoginData(d))
  {
  }

  /** The login page's submit: a successful answer calls `onLogin(data.user)`
      with the user alone, so no token, pad, notes or study notes reach
      `handleLogin`; a failed answer leaves the app's state alone (the page
      shows the message). */
  function LoginSubmit(st: Server.Store, s: State, email: string, password: string): (r: State)
    ensures Server.Login(st, Some(email), Some(password)).LoggedIn? ==>
              r == s.(user := Some(User(st.users[email].email, st.users[email].name, None)))
    ensures !Server.Login(st, Some(email), Some(password)).LoggedIn? ==> r == s
  {
    match Server.Login(st, Some(email), Some(password))
    case LoggedIn(e, n, _) => HandleLogin(s, e, n, None, UserData(None, None, None))
    case LoginFailed(_, _) => s
  }

  /** A successful login followed by the sync ends where a login handed the
      synced data directly would: the user as the server answered, without
      a token, and the data applied. */
  lemma LoginThenSync(st: Server.Store, s: State, email: string, password: string, d: SyncData)
    requires Server.Login(st, Some(email), Some(password)).LoggedIn?
    ensures !d.notes.NonList? ==>
              SyncUserData(LoginSubmit(st, s, email, password), d)
                == HandleLogin(s, st.users[email].email, st.users[email].name, None, AsLoginData(d))
    ensures d.notes.NonList? ==>
              SyncUserData(LoginSubmit(st, s, email, password), d)
                == HandleLogin(s, st.users[email].email, st.users[email].name, None, UserData(d.studyPad, None, None))
    ensures LoginSubmit(st, s, email, password).user.value.token.None?
  {
  }

  // ---------------------------------------------------------------------
  // Study pad and verse notes
  // ---------------------------------------------------------------------

  /** The separator written between pad and verse: the four characters
      backslash, `n`, backslash, `n`. */
  const Separator: string := ['\\', 'n', '\\', 'n']

  /** `handleAddVerseToNotes`: a non-empty pad gets the separator and the
      verse appended; an empty pad becomes the verse. The dashboard is
      shown with the study panel expanded. */
  function AddVerseToNotes(s: State, verse: string): (r: State)
    ensures s.studyPad == "" ==> r.studyPad == verse
    ensures s.studyPad != "" ==>
              && |r.studyPad| == |s.studyPad| + 4 + |verse|
              && r.studyPad[..|s.studyPad|] == s.studyPad
              && r.studyPad[|s.studyPad|..|s.studyPad| + 4] == Separator
              && r.studyPad[|s.studyPad| + 4..] == verse
    ensures r.page == Dashboard && !r.studyPanelCollapsed
    ensures r.verseNotes == s.verseNotes && r.library == s.library
  {
    var pad := s.studyPad + (if s.studyPad != "" then Separator else "") + verse;
    s.(studyPad := pad, page := Dashboard, studyPanelCollapsed := false)
  }

  /** The reader's "add to notes" line, added to an empty pad, is the pad:
      its number reads back as the verse's number. */
  lemma AddedVerseReadsBack(s: State, v: Reader.Verse)
    requires s.studyPad == ""
    ensures JsText.ParseInt(AddVerseToNotes(s, Reader.NoteLine(v)).studyPad[1..]) == Some(v.number)
  {
  }

  /** The request a verse-note update sends when a user is logged in. */
  datatype NoteRequest = NoteRequest(email: string, verseId: int, text: string)

  /** `handleUpdateVerseNote`: that verse's entry is set; the request is
      sent only for a logged-in user. */
  function UpdateVerseNote(s: State, verseId: int, note: string): (r: (State, Option<NoteRequest>))
    ensures verseId in r.0.verseNotes && r.0.verseNotes[verseId] == note
    ensures forall k :: k != verseId ==> (k in r.0.verseNotes <==> k in s.verseNotes)
    ensures forall k :: k != verseId && k in s.verseNotes ==> r.0.verseNotes[k] == s.verseNotes[k]
    ensures r.1.Some? <==> s.user.Some?
    ensures r.1.Some? ==> r.1.value == NoteRequest(s.user.value.email, verseId, note)
  {
    (s.(verseNotes := s.verseNotes[verseId := note]),
     if s.user.Some? then Some(NoteRequest(s.user.value.email, verseId, note)) else None)
  }

  /** Updating a verse note after loading the notes is the same as loading
      them with that note appended last. */
  lemma UpdateIsAppend(notes: seq<NoteRow>, s: State, verseId: int, note: string)
    requires s.verseNotes == NotesMap(notes)
    ensures UpdateVerseNote(s, verseId, note).0.verseNotes == NotesMap(notes + [NoteRow(verseId, note)])
  {
    assert (notes + [NoteRow(verseId, note)])[..|notes|] == notes;
  }

  // ---------------------------------------------------------------------
  // Navigation callbacks
  // ---------------------------------------------------------------------

  /** The sidebar's `onNavigate`: below 768 pixels of window width the
      sidebar collapses. */
  function SidebarNavigate(s: State, book: int, chapter: int, width: int): (r: State)
    ensures r.activeBook == book && r.activeChapter == chapter
    ensures r.sidebarCollapsed == (width < 768 || s.sidebarCollapsed)
    ensures r.page == s.page
  {
    var r := s.(activeBook := book, activeChapter := chapter);
    if width < 768 then r.(sidebarCollapsed := true) else r
  }

  /** The reader's `onStrongClick`: the code goes to the study panel, which
      expands. */
  function StrongClick(s: State, code: string): (r: State)
    ensures r.dictionaryCode == Some(code) && !r.studyPanelCollapsed
    ensures r.page == s.page && r.activeBook == s.activeBook
  {
    s.(dictionaryCode := Some(code), studyPanelCollapsed := false)
  }

  /** The search modal's callbacks. Navigation also selects the dashboard,
      the dictionary opens on the dashboard with the study panel expanded,
      and a study note opens the library page. The alert is the modal's
      own. */
  function SearchCallback(s: State, call: SearchModal.Call): (r: State)
    ensures call.Navigate? ==> r == s.(activeBook := call.book, activeChapter := call.chapter, page := Dashboard)
    ensures call.OpenDictionary? ==> r.dictionaryCode == Some(call.code) && !r.studyPanelCollapsed && r.page == Dashboard
    ensures call.OpenLibrary? ==> r == s.(page := Library)
    ensures call.Alert? ==> r == s
  {
    match call
    case Navigate(book, chapter, _) => s.(activeBook := book, activeChapter := chapter, page := Dashboard)
    case OpenDictionary(code) => StrongClick(s, code).(page := Dashboard)
    case OpenLibrary(_) => s.(page := Library)
    case Alert(_) => s
  }

  /** Clicking a verse result that has a book shows that chapter on the
      dashboard. */
  lemma VerseResultNavigates(s: State, item: SearchModal.Item, d: bool, l: bool)
    requires item.kind == "verse" && SearchModal.HasBook(item)
    ensures SearchModal.Click(item, d, l).call.Some?
    ensures var r := SearchCallback(s, SearchModal.Click(item, d, l).call.value);
            r.activeBook == item.bookNumber.value && r.activeChapter == item.chapterNumber && r.page == Dashboard
  {
  }

  /** `onNoteSaved`: a note saved from the study panel heads the library. */
  function NoteSaved(s: State, note: NotesLibrary.Note): (r: State)
    ensures |r.library| == |s.library| + 1 && r.library[0] == note && r.library[1..] == s.library
  {
    s.(library := [note] + s.library)
  }

  /** `onExternalCodeClear`. */
  function ExternalCodeClear(s: State): (r: State)
    ensures r.dictionaryCode.None? && r == s.(dictionaryCode := None)
  {
    s.(dictionaryCode := None)
  }

  /** From a verse's text to the dictionary: a marker in the rendered text
      is clicked, the study panel consumes the code, finds the entry stored
      under it and shows it; the app's code is then cleared. */
  lemma MarkerOpensDictionary(s: State, text: string, k: nat, p: StudyPanel.Panel, st: Server.Store)
    requires k < |StrongsMarkup.RenderVerseText(text)|
    requires StrongsMarkup.RenderVerseText(text)[k].Ref?
    requires StrongsMarkup.RenderVerseText(text)[k].code in st.dictionary
    ensures var code := StrongsMarkup.RenderVerseText(text)[k].code;
            var (q, rest) := StudyPanel.ConsumeExternal(p, StrongClick(s, code).dictionaryCode, st);
            q.entry == Some(st.dictionary[code]) && q.tab == StudyPanel.DictionaryTab && rest.None?
  {
    var code := StrongsMarkup.RenderVerseText(text)[k].code;
    assert StrongsMarkup.IsCode(code);
    StudyPanel.MarkerCodeOpensEntry(p, code, st);
  }
}

=== FILE: js_array.dfy ===
/** `Array.prototype.find` with a predicate `x => x.number === n`, and the
    database's `findFirst` on a number column, as the position of the
    element found. */
module JsArray {
  import opened Opt

  /** Index of the first element whose key is `n`, scanning left to right;
      `None` when no element has that key. */
  function FindKey<T>(s: seq<T>, key: T -> int, n: int): (r: Option<nat>)
    ensures r.None? <==> forall i :: 0 <= i < |s| ==> key(s[i]) != n
    ensures r.Some? ==> r.value < |s| && key(s[r.value]) == n
    ensures r.Some? ==> forall j :: 0 <= j < r.value ==> key(s[j]) != n
    decreases |s|
  {
    if s == [] then None
    else if key(s[0]) == n then Some(0)
    else match FindKey(s[1..], key, n)
      case None => None
      case Some(i) => Some(i + 1)
  }

  /** An element whose key no earlier element shares is the one found for
      its own key. */
  lemma FindOwnKey<T>(s: seq<T>, key: T -> int, i: nat)
    requires i < |s|
    requires forall j :: 0 <= j < i ==> key(s[j]) != key(s[i])
    ensures FindKey(s, key, key(s[i])) == Some(i)
  {
    var r := FindKey(s, key, key(s[i]));
    assert r.Some? && r.value <= i;
  }

  /** With distinct keys, every element is found by its own key. */
  lemma FindEveryKey<T>(s: seq<T>, key: T -> int)
    requires forall i, j :: 0 <= i < j < |s| ==> key(s[i]) != key(s[j])
    ensures forall i :: 0 <= i < |s| ==> FindKey(s, key, key(s[i])) == Some(i)
  {
    forall i | 0 <= i < |s|
      ensures FindKey(s, key, key(s[i])) == Some(i)
    {
      FindOwnKey(s, key, i);
    }
  }
}

=== FILE: js_text.dfy ===
/** The JavaScript string operations the application relies on, written out
    over `string` (a sequence of Unicode scalar values):
    `toLowerCase`/`toUpperCase`, `includes`, `trim`, `String(n)` for
    integers and `parseInt` without a radix. */
module JsText {
  import opened Opt

  // ---------------------------------------------------------------------
  // Characters
  // ---------------------------------------------------------------------

  /** The class `\d` of a JavaScript regular expression: ASCII digits only. */
  predicate IsDigit(c: char) {
    '0' <= c <= '9'
  }

  predicate AllDigits(s: string) {
    forall i :: 0 <= i < |s| ==> IsDigit(s[i])
  }

  predicate IsHexDigit(c: char) {
    IsDigit(c) || 'a' <= c <= 'f' || 'A' <= c <= 'F'
  }

  /** `toLowerCase` on one character, for Basic Latin and for the Cyrillic
      block letters the Ukrainian alphabet uses (U+0400..U+042F and Ґ). */
  function LowerChar(c: char): char {
    if 'A' <= c <= 'Z' then (c as int + 32) as char
    else if '\U{410}' <= c <= '\U{42F}' then (c as int + 32) as char
    else if '\U{400}' <= c <= '\U{40F}' then (c as int + 80) as char
    else if c == '\U{490}' then '\U{491}'
    else c
  }

  /** `toUpperCase` on one character, over the same letters as `LowerChar`. */
  function UpperChar(c: char): char {
    if 'a' <= c <= 'z' then (c as int - 32) as char
    else if '\U{430}' <= c <= '\U{44F}' then (c as int - 32) as char
    else if '\U{450}' <= c <= '\U{45F}' then (c as int - 80) as char
    else if c == '\U{491}' then '\U{490}'
    else c
  }

  function Lower(s: string): string {
    seq(|s|, i requires 0 <= i < |s| => LowerChar(s[i]))
  }

  function Upper(s: string): string {
    seq(|s|, i requires 0 <= i < |s| => UpperChar(s[i]))
  }

  /** Upper-casing forgets the case of its input: a lower-cased string
      upper-cases to the same thing as the original, and upper-casing twice
      is upper-casing once. */
  lemma UpperForgetsCase(s: string)
    ensures Upper(Lower(s)) == Upper(s)
    ensures Upper(Upper(s)) == Upper(s)
  {
    assert forall i :: 0 <= i < |s| ==> UpperChar(LowerChar(s[i])) == UpperChar(s[i]);
    assert forall i :: 0 <= i < |s| ==> UpperChar(UpperChar(s[i])) == UpperChar(s[i]);
  }

  /** Lower-casing commutes the same way. */
  lemma LowerForgetsCase(s: string)
    ensures Lower(Upper(s)) == Lower(s)
    ensures Lower(Lower(s)) == Lower(s)
  {
    assert forall i :: 0 <= i < |s| ==> LowerChar(UpperChar(s[i])) == LowerChar(s[i]);
    assert forall i :: 0 <= i < |s| ==> LowerChar(LowerChar(s[i])) == LowerChar(s[i]);
  }

  // ---------------------------------------------------------------------
  // String.prototype.includes
  // ---------------------------------------------------------------------

  /** `t` occurs in `s` starting at index `i`. */
  predicate OccursAt(s: string, t: string, i: int) {
    0 <= i && i + |t| <= |s| && s[i..i + |t|] == t
  }

  /** `s.includes(t)`, as a left-to-right scan. */
  predicate Includes(s: string, t: string)
    decreases |s|
  {
    t <= s || (|s| > 0 && Includes(s[1..], t))
  }

  /** The scan finds `t` exactly when `t` occurs somewhere in `s`; in
      particular every string includes the empty string. */
  lemma {:induction false} IncludesIffOccurs(s: string, t: string)
    ensures Includes(s, t) <==> exists i :: OccursAt(s, t, i)
    decreases |s|
  {
    if t <= s {
      assert OccursAt(s, t, 0);
    } else if |s| > 0 {
      IncludesIffOccurs(s[1..], t);
      if Includes(s[1..], t) {
        var i :| OccursAt(s[1..], t, i);
        assert s[i + 1..i + 1 + |t|] == s[1..][i..i + |t|];
        assert OccursAt(s, t, i + 1);
      }
      if i :| OccursAt(s, t, i) {
        assert i != 0;
        assert s[1..][i - 1..i - 1 + |t|] == s[i..i + |t|];
        assert OccursAt(s[1..], t, i - 1);
      }
    }
  }

  // ---------------------------------------------------------------------
  // String.prototype.trim
  // ---------------------------------------------------------------------

  /** The characters `trim` removes: ECMAScript WhiteSpace and
      LineTerminator. */
  predicate IsSpace(c: char) {
    || c == '\t' || c == '\n' || c == '\U{B}' || c == '\U{C}' || c == '\r'
    || c == ' ' || c == '\U{A0}' || c == '\U{1680}'
    || ('\U{2000}' <= c <= '\U{200A}')
    || c == '\U{2028}' || c == '\U{2029}' || c == '\U{202F}'
    || c == '\U{205F}' || c == '\U{3000}' || c == '\U{FEFF}'
  }

  predicate AllSpace(s: string) {
    forall i :: 0 <= i < |s| ==> IsSpace(s[i])
  }

  /** Length of the run of white space that starts `s`. */
  function LeadingSpace(s: string): (k: nat)
    ensures k <= |s|
    ensures forall i :: 0 <= i < k ==> IsSpace(s[i])
    ensures k < |s| ==> !IsSpace(s[k])
    decreases |s|
  {
    if |s| > 0 && IsSpace(s[0]) then 1 + LeadingSpace(s[1..]) else 0
  }

  /** Length of the run of white space that ends `s`. */
  function TrailingSpace(s: string): (k: nat)
    ensures k <= |s|
    ensures forall i :: |s| - k <= i < |s| ==> IsSpace(s[i])
    ensures k < |s| ==> !IsSpace(s[|s| - k - 1])
    decreases |s|
  {
    if |s| > 0 && IsSpace(s[|s| - 1]) then 1 + TrailingSpace(s[..|s| - 1]) else 0
  }

  function TrimStart(s: string): string {
    s[LeadingSpace(s)..]
  }

  function Trim(s: string): string {
    var t := TrimStart(s);
    t[..|t| - TrailingSpace(t)]
  }

  /** `s.trim()` is empty exactly when `s` consists of white space only;
      otherwise it starts and ends with a non-space character. */
  lemma TrimEmptyIff(s: string)
    ensures Trim(s) == "" <==> AllSpace(s)
    ensures Trim(s) != "" ==> !IsSpace(Trim(s)[0]) && !IsSpace(Trim(s)[|Trim(s)| - 1])
  {
    var k := LeadingSpace(s);
    var t := TrimStart(s);
    if k < |s| {
      assert t[0] == s[k];
      assert !AllSpace(s);
    }
  }

  // ---------------------------------------------------------------------
  // Integers as decimal text: `String(n)` and `parseInt(s)`
  // ---------------------------------------------------------------------

  function DigitChar(d: nat): (c: char)
    requires d < 10
    ensures IsDigit(c)
  {
    ('0' as int + d) as char
  }

  function DigitValue(c: char): nat
    requires IsDigit(c)
  {
    c as int - '0' as int
  }

  function HexDigitValue(c: char): nat
    requires IsHexDigit(c)
  {
    if IsDigit(c) then DigitValue(c)
    else if 'a' <= c <= 'f' then c as int - 'a' as int + 10
    else c as int - 'A' as int + 10
  }

  /** The value of a string of digits in base `b`, most significant first. */
  function DigitsValue(s: string, b: nat): nat
    requires forall i :: 0 <= i < |s| ==> IsHexDigit(s[i])
    decreases |s|
  {
    if s == [] then 0 else DigitsValue(s[..|s| - 1], b) * b + HexDigitValue(s[|s| - 1])
  }

  /** `String(n)` for a non-negative integer: at least one digit, and no
      leading zero unless the number is zero. */
  function NatToDecimal(n: nat): (r: string)
    ensures |r| >= 1 && AllDigits(r)
    ensures r[0] == '0' ==> n == 0
    decreases n
  {
    if n < 10 then [DigitChar(n)] else NatToDecimal(n / 10) + [DigitChar(n % 10)]
  }

  /** `String(i)` for any integer. */
  function IntToDecimal(i: int): (r: string)
    ensures |r| >= 1
  {
    if i < 0 then "-" + NatToDecimal(-i) else NatToDecimal(i)
  }

  lemma {:induction false} NatToDecimalValue(n: nat)
    ensures DigitsValue(NatToDecimal(n), 10) == n
    decreases n
  {
    var r := NatToDecimal(n);
    if n >= 10 {
      NatToDecimalValue(n / 10);
      assert r[..|r| - 1] == NatToDecimal(n / 10);
    }
  }

  /** Length of the run of decimal digits that starts `s`. */
  function DigitRun(s: string): (k: nat)
    ensures k <= |s| && forall i :: 0 <= i < k ==> IsDigit(s[i])
    ensures k < |s| ==> !IsDigit(s[k])
    decreases |s|
  {
    if |s| > 0 && IsDigit(s[0]) then 1 + DigitRun(s[1..]) else 0
  }

  /** Length of the run of hexadecimal digits that starts `s`. */
  function HexRun(s: string): (k: nat)
    ensures k <= |s| && forall i :: 0 <= i < k ==> IsHexDigit(s[i])
    ensures k < |s| ==> !IsHexDigit(s[k])
    decreases |s|
  {
    if |s| > 0 && IsHexDigit(s[0]) then 1 + HexRun(s[1..]) else 0
  }

  /** `parseInt(s)` without a radix; `None` stands for `NaN`. Leading white
      space is skipped, one sign is accepted, a `0x`/`0X` prefix selects
      base 16, and parsing stops at the first character that is not a
      digit of the base. */
  function ParseInt(s: string): (r: Option<int>)
  {
    var t := TrimStart(s);
    var neg := |t| > 0 && t[0] == '-';
    var u := if |t| > 0 && (t[0] == '-' || t[0] == '+') then t[1..] else t;
    var magnitude: Option<nat> :=
      if |u| >= 2 && u[0] == '0' && (u[1] == 'x' || u[1] == 'X') then
        var h := u[2..][..HexRun(u[2..])];
        if h == "" then None else Some(DigitsValue(h, 16))
      else
        var d := u[..DigitRun(u)];
        assert forall i :: 0 <= i < |d| ==> IsHexDigit(d[i]);
        if d == "" then None else Some(DigitsValue(d, 10));
    match magnitude
    case None => None
    case Some(m) => Some(if neg then -(m as int) else m as int)
  }

  /** `parseInt` gives a number only for text with a digit in it: text
      without one, such as `abc` or the empty path segment, is `NaN`. */
  lemma ParseIntNeedsDigit(s: string)
    ensures ParseInt(s).Some? ==> exists i :: 0 <= i < |s| && IsDigit(s[i])
  {
    var t := TrimStart(s);
    var u := if |t| > 0 && (t[0] == '-' || t[0] == '+') then t[1..] else t;
    if ParseInt(s).Some? {
      assert |u| > 0 && IsDigit(u[0]);
      assert u[0] == s[|s| - |u|];
    }
  }

  /** `parseInt(String(i)) === i`: the decimal rendering of an integer
      parses back to that integer. */
  lemma ParseIntOfDecimal(i: int)
    ensures ParseInt(IntToDecimal(i)) == Some(i)
  {
    ParseIntOfDecimalThen(i, "");
    assert IntToDecimal(i) + "" == IntToDecimal(i);
  }

  /** `parseInt` stops at the first character that is not a digit, so a
      decimal rendering followed by such text still parses to the number. */
  lemma ParseIntOfDecimalThen(i: int, rest: string)
    requires rest == "" || (!IsDigit(rest[0]) && rest[0] != 'x' && rest[0] != 'X')
    ensures ParseInt(IntToDecimal(i) + rest) == Some(i)
  {
    var n: nat := if i < 0 then -i else i;
    var d := NatToDecimal(n);
    NatToDecimalValue(n);
    assert IntToDecimal(i) + rest == (if i < 0 then "-" else "") + d + rest by {
      if i < 0 {
        assert IntToDecimal(i) == "-" + d;
      } else {
        assert IntToDecimal(i) == d;
        assert "" + d == d;
      }
    }
    ParseIntDigits(IntToDecimal(i) + rest, i < 0, d, rest);
    assert (if i < 0 then -(n as int) else n as int) == i;
  }

  /** An optional minus sign, then digits, then text that starts with
      neither a digit nor `x`: `parseInt` reads the digits. */
  lemma ParseIntDigits(s: string, neg: bool, d: string, rest: string)
    requires AllDigits(d) && d != ""
    requires rest == "" || (!IsDigit(rest[0]) && rest[0] != 'x' && rest[0] != 'X')
    requires s == (if neg then "-" else "") + d + rest
    ensures ParseInt(s) == Some(if neg then -(DigitsValue(d, 10) as int) else DigitsValue(d, 10) as int)
  {
    assert s[0] == if neg then '-' else d[0];
    assert !IsSpace(s[0]);
    assert LeadingSpace(s) == 0;
    assert TrimStart(s) == s;
    var u := if neg then s[1..] else s;
    assert u == d + rest;
    DigitRunOfDigits(d, rest);
    assert u[..DigitRun(u)] == d;
    assert !(|u| >= 2 && u[0] == '0' && (u[1] == 'x' || u[1] == 'X')) by {
      if |u| >= 2 {
        assert u[1] == if |d| >= 2 then d[1] else rest[0];
      }
    }
  }

  /** The digit run of a string of digits followed by a non-digit is
      exactly those digits. */
  lemma {:induction false} DigitRunOfDigits(d: string, rest: string)
    requires AllDigits(d)
    requires rest == "" || !IsDigit(rest[0])
    ensures DigitRun(d + rest) == |d|
    decreases |d|
  {
    if d != "" {
      assert (d + rest)[1..] == d[1..] + rest;
      DigitRunOfDigits(d[1..], rest);
    } else {
      assert d + rest == rest;
    }
  }
}

=== FILE: map_suite.dfy ===
/** The state machines of the map page: the location search, selecting a
    location, the journey toggle and the layers it keeps in the map style,
    and the two-point distance tool with its distance and walking-days
    readout. The great-circle distance between two points is a parameter. */
module MapSuite {
  import opened Opt
  import opened JsText
  import opened MapUtils

  datatype Location = Location(id: nat, name: string, nameUkrainian: Option<string>,
                               description: string, lng: real, lat: real)

  // ---------------------------------------------------------------------
  // Location search
  // ---------------------------------------------------------------------

  /** The filter test: the query, lower-cased, occurs in the lower-cased
      name or in the lower-cased Ukrainian name when there is one. The
      description is not searched. */
  predicate Matches(loc: Location, query: string) {
    Includes(Lower(loc.name), Lower(query))
    || (loc.nameUkrainian.Some? && Includes(Lower(loc.nameUkrainian.value), Lower(query)))
  }

  /** `locations.filter(...)`. */
  function Filter(locs: seq<Location>, query: string): (r: seq<Location>)
    ensures forall l :: l in r <==> l in locs && Matches(l, query)
    ensures |r| <= |locs|
    decreases |locs|
  {
    if locs == [] then []
    else if Matches(locs[0], query) then [locs[0]] + Filter(locs[1..], query)
    else Filter(locs[1..], query)
  }

  /** `a` is `b` with some elements left out, in the same order. */
  predicate IsSubsequence<T(==)>(a: seq<T>, b: seq<T>)
    decreases |b|
  {
    a == [] || (b != [] && ((a[0] == b[0] && IsSubsequence(a[1..], b[1..])) || IsSubsequence(a, b[1..])))
  }

  /** The results keep the order of the location list. */
  lemma {:induction false} FilterIsSubsequence(locs: seq<Location>, query: string)
    ensures IsSubsequence(Filter(locs, query), locs)
    decreases |locs|
  {
    if locs != [] {
      FilterIsSubsequence(locs[1..], query);
      var r := Filter(locs, query);
      if Matches(locs[0], query) {
        assert r[0] == locs[0] && r[1..] == Filter(locs[1..], query);
      } else {
        assert r == Filter(locs[1..], query);
      }
    }
  }

  /** The search only sees the lower-cased query, so queries that differ
      only in case find the same locations. */
  lemma {:induction false} SearchIgnoresCase(locs: seq<Location>, q1: string, q2: string)
    requires Lower(q1) == Lower(q2)
    ensures Filter(locs, q1) == Filter(locs, q2)
    decreases |locs|
  {
    if locs != [] {
      assert Matches(locs[0], q1) == Matches(locs[0], q2);
      SearchIgnoresCase(locs[1..], q1, q2);
    }
  }

  /** The search box and the result list. */
  datatype Search = Search(query: string, results: seq<Location>, selected: Option<Location>)

  /** `handleSearch`: the query is kept; shorter than two characters it
      clears the results, otherwise the results are the matching
      locations. */
  function HandleSearch(s: Search, locs: seq<Location>, query: string): (r: Search)
    ensures r.query == query && r.selected == s.selected
    ensures |query| < 2 ==> r.results == []
    ensures |query| >= 2 ==> forall l :: l in r.results <==> l in locs && Matches(l, query)
  {
    if |query| < 2 then s.(query := query, results := [])
    else s.(query := query, results := Filter(locs, query))
  }

  /** `handleSelectLocation`: the location becomes the selection, the
      results and the query are cleared, and the camera flies there with
      zoom 12. */
  function SelectLocation(s: Search, loc: Location): (r: (Search, map<string, JsVal>))
    ensures r.0 == Search("", [], Some(loc))
    ensures "center" in r.1 && r.1["center"] == Coords(loc.lng, loc.lat)
    ensures "zoom" in r.1 && r.1["zoom"] == Num(12.0)
    ensures "duration" in r.1 && r.1["duration"] == Num(2000.0)
  {
    (Search("", [], Some(loc)), FlyToParams(loc.lng, loc.lat, map["zoom" := Num(12.0)]))
  }

  // ---------------------------------------------------------------------
  // Journeys
  // ---------------------------------------------------------------------

  datatype Journey = Journey(id: nat, name: string, color: string)

  datatype Journeys = Journeys(active: Option<Journey>, style: Style)

  /** `handleJourneySelect`: the layer of the active journey, if any, is
      removed first; then a journey other than the active one is added and
      becomes active, while `null` or the active journey itself clears the
      selection. */
  function SelectJourney(s: Journeys, j: Option<Journey>): (r: Journeys)
    ensures r.active.None? <==> j.None? || (s.active.Some? && j.value.id == s.active.value.id)
    ensures r.active.Some? ==> r.active == j
    ensures s.active.Some? && r.active.None? ==> FreeOf(r.style, s.active.value.id)
  {
    var style := if s.active.Some? then RemoveJourney(s.style, s.active.value.id) else s.style;
    if j.Some? && (s.active.None? || j.value.id != s.active.value.id) then
      Journeys(j, AddJourney(style, j.value.id))
    else
      Journeys(None, style)
  }

  /** The map style carries no journey ids at all. */
  ghost predicate NoJourneys(base: Style) {
    forall id: nat :: FreeOf(base, id)
  }

  /** The style is the base style plus exactly the active journey. */
  predicate StyleMatches(s: Journeys, base: Style) {
    s.style == if s.active.None? then base else AddJourney(base, s.active.value.id)
  }

  /** Selecting journeys keeps the style equal to the base style plus the
      active journey's layers, whatever is clicked. */
  lemma SelectKeepsStyle(s: Journeys, base: Style, j: Option<Journey>)
    requires NoJourneys(base) && StyleMatches(s, base)
    ensures StyleMatches(SelectJourney(s, j), base)
  {
    if s.active.Some? {
      RemoveUndoesAdd(base, s.active.value.id);
    }
  }

  /** Selecting the same journey twice from no selection ends with no
      selection and the base style. */
  lemma SelectTwiceClears(base: Style, j: Journey)
    requires NoJourneys(base)
    ensures SelectJourney(SelectJourney(Journeys(None, base), Some(j)), Some(j)) == Journeys(None, base)
  {
    RemoveUndoesAdd(base, j.id);
  }

  // ---------------------------------------------------------------------
  // Distance tool
  // ---------------------------------------------------------------------

  datatype Point = Point(lng: real, lat: real)

  /** A map click in distance mode: the first click starts a measurement,
      the second completes it, and a click on a completed measurement
      starts a new one. */
  function ClickPoint(points: seq<Point>, p: Point): (r: seq<Point>)
    ensures 1 <= |r| <= 2 && r[|r| - 1] == p
    ensures |points| == 1 <==> |r| == 2
    ensures |r| == 2 ==> r[0] == points[0]
  {
    if |points| == 0 then [p]
    else if |points| == 1 then points + [p]
    else [p]
  }

  /** Toggling distance mode always discards the points. */
  function ToggleDistanceMode(mode: bool, points: seq<Point>): (r: (bool, seq<Point>))
    ensures r.0 == !mode && r.1 == []
  {
    (!mode, [])
  }

  datatype Readout = Readout(distance: Option<nat>, days: Option<nat>)

  /** The distance is shown only for exactly two points; the walking days
      only for a non-zero distance. `measure` is the great-circle distance
      in tenths of a kilometre. */
  function Measure(points: seq<Point>, measure: (Point, Point) -> nat): (r: Readout)
    ensures r.distance.Some? <==> |points| == 2
    ensures r.distance.Some? ==> r.distance.value == measure(points[0], points[1])
    ensures r.days.Some? <==> r.distance.Some? && r.distance.value != 0
    ensures r.days.Some? ==> r.days.value >= 1 && r.days.value == WalkingDays(r.distance.value)
  {
    var d := if |points| == 2 then Some(measure(points[0], points[1])) else None;
    var days := if d.Some? && d.value != 0 then Some(WalkingDays(d.value)) else None;
    Readout(d, days)
  }

  /** What the panel renders for a readout under `{distance && (…)}`:
      nothing for `null`, the bare number `0` for a zero distance (React
      prints a falsy number), and the distance box otherwise. */
  datatype View = Nothing | BareZero | DistanceBox(tenths: nat, days: Option<nat>)

  function ReadoutView(r: Readout): (v: View)
    ensures v.Nothing? <==> r.distance.None?
    ensures v.BareZero? <==> r.distance == Some(0)
    ensures v.DistanceBox? ==> r.distance == Some(v.tenths) && r.days == v.days
  {
    match r.distance
    case None => Nothing
    case Some(d) =>
      if d == 0 then BareZero
      else DistanceBox(d, r.days)
  }

  /** The distance box appears exactly when two points are measured apart,
      and then shows their distance with at least one walking day; two
      points that round to the same place show only a `0`. */
  lemma BoxShownIffApart(points: seq<Point>, measure: (Point, Point) -> nat)
    ensures ReadoutView(Measure(points, measure)).DistanceBox? <==>
              |points| == 2 && measure(points[0], points[1]) != 0
    ensures ReadoutView(Measure(points, measure)).DistanceBox? ==>
              ReadoutView(Measure(points, measure)).tenths == measure(points[0], points[1])
              && ReadoutView(Measure(points, measure)).days.Some?
              && ReadoutView(Measure(points, measure)).days.value >= 1
    ensures |points| == 2 && measure(points[0], points[1]) == 0 ==>
              ReadoutView(Measure(points, measure)) == BareZero
  {
  }

  /** Two clicks measure from the first point to the second; a third click
      starts over and hides the readout. */
  lemma TwoClicksMeasure(a: Point, b: Point, c: Point, measure: (Point, Point) -> nat)
    ensures Measure(ClickPoint(ClickPoint([], a), b), measure).distance == Some(measure(a, b))
    ensures Measure(ClickPoint(ClickPoint(ClickPoint([], a), b), c), measure) == Readout(None, None)
  {
    assert ClickPoint(ClickPoint([], a), b) == [a, b];
  }
}

=== FILE: map_utils.dfy ===
/** The integer-friendly helpers of the map page: walking days for a
    distance, the source and layer ids a journey occupies in the map style,
    adding and removing those ids, the dash-array animation step, and the
    merge of `flyTo` options over their defaults. Distances are whole
    tenths of a kilometre, the precision `calculateDistance` rounds to. */
module MapUtils {
  import opened JsText

  // ---------------------------------------------------------------------
  // Walking days
  // ---------------------------------------------------------------------

  /** A day's walk: 30 km, that is 300 tenths of a kilometre. */
  const TenthsPerDay: nat := 300

  /** `Math.ceil(km / 30)` for a distance of `tenths` tenths of a km: the
      fewest whole days that cover the distance. */
  function WalkingDays(tenths: nat): (d: nat)
    ensures d * TenthsPerDay >= tenths
    ensures tenths > 0 ==> (d - 1) * TenthsPerDay < tenths
    ensures tenths == 0 <==> d == 0
  {
    (tenths + TenthsPerDay - 1) / TenthsPerDay
  }

  /** A longer distance never takes fewer days. */
  lemma WalkingDaysMonotone(a: nat, b: nat)
    requires a <= b
    ensures WalkingDays(a) <= WalkingDays(b)
  {
  }

  // ---------------------------------------------------------------------
  // Journey ids
  // ---------------------------------------------------------------------

  /** The line source of journey `id`. */
  function SourceId(id: nat): string {
    "journey-" + NatToDecimal(id)
  }

  /** The waypoint source of journey `id`. */
  function PointsId(id: nat): string {
    SourceId(id) + "-points"
  }

  /** The line layer of journey `id`. */
  function LineId(id: nat): string {
    "journey-line-" + NatToDecimal(id)
  }

  /** The waypoint layer of journey `id`. */
  function MarkersId(id: nat): string {
    "journey-markers-" + NatToDecimal(id)
  }

  /** Different numbers have different decimal renderings. */
  lemma DecimalInjective(a: nat, b: nat)
    requires NatToDecimal(a) == NatToDecimal(b)
    ensures a == b
  {
    NatToDecimalValue(a);
    NatToDecimalValue(b);
  }

  /** A common prefix cancels. */
  lemma SamePrefixSameRest(p: string, x: string, y: string)
    requires p + x == p + y
    ensures x == y
  {
    assert x == (p + x)[|p|..];
    assert y == (p + y)[|p|..];
  }

  /** The four ids of a journey are told apart from each other and from
      those of every other journey, so removing one journey's ids never
      touches another's. */
  lemma JourneyIdsDistinct(a: nat, b: nat)
    ensures SourceId(a) != PointsId(b)
    ensures LineId(a) != MarkersId(b)
    ensures a != b ==> SourceId(a) != SourceId(b) && PointsId(a) != PointsId(b)
    ensures a != b ==> LineId(a) != LineId(b) && MarkersId(a) != MarkersId(b)
  {
    var da, db := NatToDecimal(a), NatToDecimal(b);
    if |SourceId(a)| == |PointsId(b)| {
      var k := 8 + |db|;
      assert SourceId(a)[k] == da[|db|];
      assert PointsId(b)[k] == '-';
    }
    assert LineId(a)[8] != MarkersId(b)[8];
    if SourceId(a) == SourceId(b) {
      SamePrefixSameRest("journey-", da, db);
      DecimalInjective(a, b);
    }
    if PointsId(a) == PointsId(b) {
      assert SourceId(a) == PointsId(a)[..|PointsId(a)| - 7];
      assert SourceId(b) == PointsId(b)[..|PointsId(b)| - 7];
      SamePrefixSameRest("journey-", da, db);
      DecimalInjective(a, b);
    }
    if LineId(a) == LineId(b) {
      SamePrefixSameRest("journey-line-", da, db);
      DecimalInjective(a, b);
    }
    if MarkersId(a) == MarkersId(b) {
      SamePrefixSameRest("journey-markers-", da, db);
      DecimalInjective(a, b);
    }
  }

  // ---------------------------------------------------------------------
  // The map style: which sources and layers exist
  // ---------------------------------------------------------------------

  datatype Style = Style(sources: set<string>, layers: set<string>)

  /** All four ids of journey `id` are in the style. */
  predicate Shows(st: Style, id: nat) {
    SourceId(id) in st.sources && PointsId(id) in st.sources
    && LineId(id) in st.layers && MarkersId(id) in st.layers
  }

  /** None of the four ids of journey `id` is in the style. */
  predicate FreeOf(st: Style, id: nat) {
    SourceId(id) !in st.sources && PointsId(id) !in st.sources
    && LineId(id) !in st.layers && MarkersId(id) !in st.layers
  }

  /** `addJourneyLayer`: when the line source is missing, both sources and
      both layers are added; when it exists, nothing happens. */
  function AddJourney(st: Style, id: nat): (r: Style)
    ensures SourceId(id) in st.sources ==> r == st
    ensures SourceId(id) !in st.sources ==> Shows(r, id)
    ensures SourceId(id) !in st.sources ==>
              r.sources - st.sources == {SourceId(id), PointsId(id)} - st.sources
              && r.layers - st.layers == {LineId(id), MarkersId(id)} - st.layers
    ensures st.sources <= r.sources && st.layers <= r.layers
  {
    if SourceId(id) in st.sources then st
    else Style(st.sources + {SourceId(id), PointsId(id)}, st.layers + {LineId(id), MarkersId(id)})
  }

  /** `removeJourneyLayer`: each of the four ids is removed if present. */
  function RemoveJourney(st: Style, id: nat): (r: Style)
    ensures FreeOf(r, id)
    ensures forall s :: s in r.sources <==> s in st.sources && s != SourceId(id) && s != PointsId(id)
    ensures forall l :: l in r.layers <==> l in st.layers && l != LineId(id) && l != MarkersId(id)
  {
    Style(st.sources - {SourceId(id), PointsId(id)}, st.layers - {LineId(id), MarkersId(id)})
  }

  /** Adding a journey twice is adding it once. */
  lemma AddIdempotent(st: Style, id: nat)
    ensures AddJourney(AddJourney(st, id), id) == AddJourney(st, id)
  {
  }

  /** Remove targets exactly what add created: on a style free of the
      journey, adding and then removing it gives the style back. */
  lemma RemoveUndoesAdd(st: Style, id: nat)
    requires FreeOf(st, id)
    ensures RemoveJourney(AddJourney(st, id), id) == st
  {
    JourneyIdsDistinct(id, id);
  }

  /** Removing one journey leaves every other journey as it was. */
  lemma RemoveKeepsOthers(st: Style, a: nat, b: nat)
    requires a != b
    ensures Shows(RemoveJourney(st, a), b) <==> Shows(st, b)
    ensures FreeOf(RemoveJourney(st, a), b) <==> FreeOf(st, b)
  {
    JourneyIdsDistinct(a, b);
    JourneyIdsDistinct(b, a);
  }

  // ---------------------------------------------------------------------
  // Line animation
  // ---------------------------------------------------------------------

  /** The dash patterns the line animation cycles through. */
  const DashArray: seq<seq<real>> := [
    [0.0, 4.0, 3.0],
    [0.5, 4.0, 2.5],
    [1.0, 4.0, 2.0],
    [1.5, 4.0, 1.5],
    [2.0, 4.0, 1.0],
    [2.5, 4.0, 0.5],
    [3.0, 4.0, 0.0],
    [0.0, 0.5, 3.0, 3.5],
    [0.0, 1.0, 3.0, 3.0],
    [0.0, 1.5, 3.0, 2.5],
    [0.0, 2.0, 3.0, 2.0],
    [0.0, 2.5, 3.0, 1.5],
    [0.0, 3.0, 3.0, 1.0],
    [0.0, 3.5, 3.0, 0.5]
  ]

  /** One animation tick: the step advances by one, wrapping at the end of
      the dash patterns. */
  function NextStep(step: nat): (r: nat)
    ensures r < |DashArray|
    ensures step < |DashArray| - 1 ==> r == step + 1
    ensures step == |DashArray| - 1 ==> r == 0
  {
    (step + 1) % |DashArray|
  }

  /** Runs the animation loop over the frames it gets: `present[i]` says
      whether the line layer still exists at the `i`-th callback. Each
      callback advances the step; while the layer exists it paints the
      pattern of that step and asks for another frame, and the first
      callback that finds the layer gone ends the loop. The result lists
      the painted steps. */
  method Animate(present: seq<bool>) returns (painted: seq<nat>)
    ensures |painted| <= |present|
    ensures forall i :: 0 <= i < |painted| ==> present[i] && painted[i] == (i + 1) % |DashArray|
    ensures |painted| < |present| ==> !present[|painted|]
  {
    var step: nat := 0;
    painted := [];
    var i := 0;
    while i < |present|
      invariant 0 <= i <= |present|
      invariant |painted| == i
      invariant step == i % |DashArray|
      invariant forall k :: 0 <= k < i ==> present[k] && painted[k] == (k + 1) % |DashArray|
    {
      step := NextStep(step);
      if !present[i] {
        return;
      }
      painted := painted + [step];
      i := i + 1;
    }
  }

  /** The step after `k` ticks from the initial step 0. */
  function StepAfter(k: nat): (r: nat)
    ensures r < |DashArray|
  {
    if k == 0 then 0 else NextStep(StepAfter(k - 1))
  }

  /** `k` ticks from 0 reach step `k % 14`: the patterns come round in
      order, each once per cycle, which is the step `Animate` paints at
      its `k`-th frame. */
  lemma {:induction false} TicksFromZero(k: nat)
    ensures StepAfter(k) == k % |DashArray|
  {
    if k > 0 {
      TicksFromZero(k - 1);
      assert |DashArray| == 14;
      SuccMod(k - 1);
    }
  }

  /** Counting up by one moves the remainder modulo 14 up by one,
      wrapping to 0. */
  lemma SuccMod(a: nat)
    ensures (a + 1) % 14 == if a % 14 == 13 then 0 else a % 14 + 1
  {
    var q := a / 14;
    assert a == 14 * q + a % 14;
  }

  // ---------------------------------------------------------------------
  // flyTo options
  // ---------------------------------------------------------------------

  /** A JavaScript value as it appears in an options object. */
  datatype JsVal = Undefined | Null | Num(x: real) | Bool(b: bool) | Str(s: string)
                 | Coords(lng: real, lat: real) | Func

  predicate Truthy(v: JsVal) {
    match v
    case Undefined => false
    case Null => false
    case Num(x) => x != 0.0
    case Bool(b) => b
    case Str(s) => s != ""
    case _ => true
  }

  /** `options.key`: an absent key reads as `undefined`. */
  function Get(options: map<string, JsVal>, key: string): JsVal {
    if key in options then options[key] else Undefined
  }

  /** `a || b`. */
  function Or(a: JsVal, b: JsVal): JsVal {
    if Truthy(a) then a else b
  }

  /** The defaults object of `flyToLocation`. */
  function FlyDefaults(lng: real, lat: real, options: map<string, JsVal>): map<string, JsVal> {
    map[
      "center" := Coords(lng, lat),
      "zoom" := Or(Get(options, "zoom"), Num(12.0)),
      "bearing" := Or(Get(options, "bearing"), Num(0.0)),
      "pitch" := Or(Get(options, "pitch"), Num(0.0)),
      "duration" := Num(2000.0),
      "essential" := Bool(true),
      "easing" := Func]
  }

  const DefaultKeys: set<string> := {"center", "zoom", "bearing", "pitch", "duration", "essential", "easing"}

  /** `{ ...defaults, ...options }`: every key of the options, even one
      holding `undefined`, overrides the default; every other default key
      keeps its default. */
  function FlyToParams(lng: real, lat: real, options: map<string, JsVal>): (p: map<string, JsVal>)
    ensures p.Keys == DefaultKeys + options.Keys
    ensures forall k :: k in options ==> p[k] == options[k]
    ensures "center" !in options ==> p["center"] == Coords(lng, lat)
    ensures "zoom" !in options ==> p["zoom"] == Num(12.0)
    ensures "bearing" !in options ==> p["bearing"] == Num(0.0)
    ensures "pitch" !in options ==> p["pitch"] == Num(0.0)
    ensures "duration" !in options ==> p["duration"] == Num(2000.0)
    ensures "essential" !in options ==> p["essential"] == Bool(true)
  {
    FlyDefaults(lng, lat, options) + options
  }

  /** The `options.zoom || 12` fallback never shows through: a supplied
      zoom, even a falsy one such as 0, wins, and a missing one gives 12.
      The same holds for bearing and pitch with fallback 0. */
  lemma ZoomFallback(lng: real, lat: real, options: map<string, JsVal>)
    ensures FlyToParams(lng, lat, options)["zoom"] == if "zoom" in options then options["zoom"] else Num(12.0)
    ensures "zoom" in options && options["zoom"] == Num(0.0) ==> FlyToParams(lng, lat, options)["zoom"] == Num(0.0)
    ensures FlyToParams(lng, lat, options)["bearing"] == if "bearing" in options then options["bearing"] else Num(0.0)
  {
  }
}

=== FILE: notes_library.dfy ===
/** The notes library page: selecting a note, starting a new draft,
    editing, cancelling, saving (a POST for a draft, a PUT for a stored
    note) and deleting. The HTTP calls are left to the caller; the
    functions describe the request sent and the state that follows. */
module NotesLibrary {
  import opened Opt
  import opened JsText

  /** A note's id: the draft marker `'new'` or a stored id. */
  datatype NoteId = Draft | Stored(n: nat)

  datatype Note = Note(id: NoteId, title: string, content: string)

  datatype Library = Library(
    notes: seq<Note>,
    selected: Option<Note>,
    editing: bool,
    editTitle: string,
    editContent: string,
    showDelete: bool)

  /** `handleSelectNote`: the note is shown, not edited. */
  function SelectNote(l: Library, n: Note): (r: Library)
    ensures r.selected == Some(n) && !r.editing
    ensures r.notes == l.notes && r.editTitle == l.editTitle && r.editContent == l.editContent
  {
    l.(selected := Some(n), editing := false)
  }

  /** `handleNewNote`: an empty draft is selected and the editor opens
      empty. */
  function NewNote(l: Library): (r: Library)
    ensures r.selected == Some(Note(Draft, "", "")) && r.editing
    ensures r.editTitle == "" && r.editContent == "" && r.notes == l.notes
  {
    l.(selected := Some(Note(Draft, "", "")), editing := true, editTitle := "", editContent := "")
  }

  /** `handleEdit`: the editor opens on the selected note's title and
      content. The button exists only while a note is selected. */
  function Edit(l: Library): (r: Library)
    requires l.selected.Some?
    ensures r.editing && r.editTitle == l.selected.value.title && r.editContent == l.selected.value.content
    ensures r.selected == l.selected && r.notes == l.notes
  {
    l.(editing := true, editTitle := l.selected.value.title, editContent := l.selected.value.content)
  }

  /** `handleCancel`: editing stops; a cancelled draft is also
      deselected, a stored note stays selected. */
  function Cancel(l: Library): (r: Library)
    requires l.selected.Some?
    ensures !r.editing && r.notes == l.notes
    ensures r.selected.None? <==> l.selected.value.id == Draft
    ensures r.selected.Some? ==> r.selected == l.selected
  {
    if l.selected.value.id == Draft then l.(editing := false, selected := None)
    else l.(editing := false)
  }

  /** Starting a new note and cancelling it returns to no selection, with
      the list untouched. */
  lemma NewThenCancel(l: Library)
    ensures Cancel(NewNote(l)).selected.None? && !Cancel(NewNote(l)).editing
    ensures Cancel(NewNote(l)).notes == l.notes
  {
  }

  // ---------------------------------------------------------------------
  // Saving
  // ---------------------------------------------------------------------

  datatype Method = Post | Put

  /** The save request: POST to the collection, or PUT to the note's own
      path. */
  datatype SaveRequest = SaveRequest(verb: Method, path: string, email: string, title: string, content: string)

  const Collection := "/api/notes/library"

  function SaveRequestFor(l: Library, email: string): (r: SaveRequest)
    requires l.selected.Some?
    ensures r.verb == Post <==> l.selected.value.id == Draft
    ensures r.verb == Post ==> r.path == Collection
    ensures r.verb == Put ==> r.path == Collection + "/" + NatToDecimal(l.selected.value.id.n)
    ensures r.email == email && r.title == l.editTitle && r.content == l.editContent
  {
    match l.selected.value.id
    case Draft => SaveRequest(Post, Collection, email, l.editTitle, l.editContent)
    case Stored(n) => SaveRequest(Put, Collection + "/" + NatToDecimal(n), email, l.editTitle, l.editContent)
  }

  /** `prev.map(n => n.id === saved.id ? saved : n)`. */
  function ReplaceById(notes: seq<Note>, saved: Note): (r: seq<Note>)
    ensures |r| == |notes|
    ensures forall i :: 0 <= i < |r| ==> r[i] == if notes[i].id == saved.id then saved else notes[i]
  {
    seq(|notes|, i requires 0 <= i < |notes| => if notes[i].id == saved.id then saved else notes[i])
  }

  /** `prev.filter(n => n.id !== id)`. */
  function RemoveById(notes: seq<Note>, id: NoteId): (r: seq<Note>)
    ensures forall n :: n in r <==> n in notes && n.id != id
    ensures |r| <= |notes|
    decreases |notes|
  {
    if notes == [] then []
    else if notes[0].id == id then RemoveById(notes[1..], id)
    else [notes[0]] + RemoveById(notes[1..], id)
  }

  /** The answer to the save: `None` for a non-OK response or a failed
      request, which change nothing; otherwise the saved note is prepended
      (for a draft) or replaces the notes with its id, and becomes the
      selection as editing stops. */
  function Saved(l: Library, response: Option<Note>): (r: Library)
    requires l.selected.Some?
    ensures response.None? ==> r == l
    ensures response.Some? ==> r.selected == response && !r.editing
    ensures response.Some? && l.selected.value.id == Draft ==> r.notes == [response.value] + l.notes
    ensures response.Some? && l.selected.value.id != Draft ==> r.notes == ReplaceById(l.notes, response.value)
  {
    match response
    case None => l
    case Some(saved) =>
      var notes := if l.selected.value.id == Draft then [saved] + l.notes else ReplaceById(l.notes, saved);
      l.(notes := notes, selected := Some(saved), editing := false)
  }

  /** Saving a stored note leaves the other notes, the length and the order
      as they were; if its id is listed exactly once, saving replaces just
      that entry. */
  lemma SaveReplacesOnlyThatNote(notes: seq<Note>, saved: Note, k: nat)
    requires k < |notes| && notes[k].id == saved.id
    requires forall i :: 0 <= i < |notes| && i != k ==> notes[i].id != saved.id
    ensures ReplaceById(notes, saved) == notes[k := saved]
  {
  }

  /** A prepended draft is the new head and the old list is the tail. */
  lemma SaveDraftPrepends(l: Library, saved: Note)
    requires l.selected == Some(Note(Draft, "", ""))
    ensures |Saved(l, Some(saved)).notes| == |l.notes| + 1
    ensures Saved(l, Some(saved)).notes[0] == saved && Saved(l, Some(saved)).notes[1..] == l.notes
  {
  }

  // ---------------------------------------------------------------------
  // Deleting
  // ---------------------------------------------------------------------

  /** `handleDeleteClick`: the confirmation dialog opens. */
  function DeleteClick(l: Library): (r: Library)
    ensures r.showDelete && r.notes == l.notes && r.selected == l.selected && r.editing == l.editing
  {
    l.(showDelete := true)
  }

  /** `confirmDelete`: after the DELETE request, whatever its status, the
      notes with the selected id are dropped, the selection is cleared and
      the dialog closes; `failed` is a request that threw, which changes
      nothing. */
  function ConfirmDelete(l: Library, failed: bool): (r: Library)
    requires l.selected.Some?
    ensures failed ==> r == l
    ensures !failed ==> r.notes == RemoveById(l.notes, l.selected.value.id) && r.selected.None? && !r.showDelete
    ensures !failed ==> forall n :: n in r.notes ==> n.id != l.selected.value.id
  {
    if failed then l
    else l.(notes := RemoveById(l.notes, l.selected.value.id), selected := None, showDelete := false)
  }

  /** Deleting keeps the remaining notes in their order: the result is the
      list with exactly the matching notes left out. */
  lemma {:induction false} RemoveKeepsOrder(notes: seq<Note>, id: NoteId, k: nat)
    requires k <= |notes|
    ensures RemoveById(notes, id) == RemoveById(notes[..k], id) + RemoveById(notes[k..], id)
    decreases k
  {
    if k > 0 {
      RemoveKeepsOrder(notes[1..], id, k - 1);
      assert notes[1..][..k - 1] == notes[..k][1..];
      assert notes[1..][k - 1..] == notes[k..];
      assert notes[..k][0] == notes[0];
    } else {
      assert notes[..0] == [];
      assert notes[0..] == notes;
    }
  }

  /** Deleting a note whose id is not listed changes nothing. */
  lemma {:induction false} RemoveAbsent(notes: seq<Note>, id: NoteId)
    requires forall i :: 0 <= i < |notes| ==> notes[i].id != id
    ensures RemoveById(notes, id) == notes
    decreases |notes|
  {
    if notes != [] {
      RemoveAbsent(notes[1..], id);
    }
  }

  /** Deleting a freshly saved draft undoes the save: the list is back to
      what it was, provided the server gave the note an id not yet in the
      list. */
  lemma SaveThenDelete(l: Library, saved: Note)
    requires l.selected.Some? && l.selected.value.id == Draft
    requires forall i :: 0 <= i < |l.notes| ==> l.notes[i].id != saved.id
    ensures ConfirmDelete(Saved(l, Some(saved)), false).notes == l.notes
  {
    var s := Saved(l, Some(saved));
    assert s.notes[0] == saved && s.notes[1..] == l.notes;
    RemoveAbsent(l.notes, saved.id);
  }
}

=== FILE: option.dfy ===
/** A value that may be absent: JavaScript's `null`/`undefined` on the
    fields and state variables of the application. */
module Opt {

  datatype Option<+T> = None | Some(value: T) {

    /** The value, or `default` when absent (JavaScript's `x ?? default`). */
    function GetOr(default: T): T
    {
      match this
      case Some(v) => v
      case None => default
    }
  }
}

=== FILE: reader.dfy ===
/** The Reader page: per-language version defaults, the compare view that
    pairs each left-column verse with a right-column verse, the
    "add to notes" line and the verse-note toggle. Verse text itself is
    rendered by `StrongsMarkup.RenderVerseText`. */
module Reader {
  import opened Opt
  import opened JsText
  import opened StrongsMarkup
  import opened JsArray

  datatype Verse = Verse(id: int, number: int, text: string)

  // ---------------------------------------------------------------------
  // Versions shown in the two columns
  // ---------------------------------------------------------------------

  datatype Versions = Versions(available: seq<string>, left: string, right: string)

  /** Before the version list arrives the Reader shows UBIO on the left and
      KJV on the right. */
  function InitialVersions(): (v: Versions)
    ensures v.available == [] && v.left == "UBIO" && v.right == "KJV"
  {
    Versions([], "UBIO", "KJV")
  }

  /** The version list arrives: `None` stands for a response that is not an
      array or a failed request, which empties the list and keeps the
      columns; an array is kept and the columns are reset for the language
      (Ukrainian text first for `ua`, English first otherwise). */
  function VersionsLoaded(v: Versions, response: Option<seq<string>>, language: string): (r: Versions)
    ensures response.None? ==> r == v.(available := [])
    ensures response.Some? ==> r.available == response.value
    ensures response.Some? ==> {r.left, r.right} == {"UBIO", "KJV"} && r.left != r.right
    ensures response.Some? ==> (r.left == "UBIO" <==> language == "ua")
  {
    match response
    case None => v.(available := [])
    case Some(list) =>
      if language == "ua" then Versions(list, "UBIO", "KJV") else Versions(list, "KJV", "UBIO")
  }

  /** Switching between Ukrainian and any other language swaps the two
      columns and nothing else. */
  lemma LanguageSwapsColumns(v: Versions, list: seq<string>, other: string)
    requires other != "ua"
    ensures VersionsLoaded(v, Some(list), "ua").left == VersionsLoaded(v, Some(list), other).right
    ensures VersionsLoaded(v, Some(list), "ua").right == VersionsLoaded(v, Some(list), other).left
    ensures VersionsLoaded(v, Some(list), "ua").available == VersionsLoaded(v, Some(list), other).available
  {
  }

  // ---------------------------------------------------------------------
  // Compare view
  // ---------------------------------------------------------------------

  /** The key the compare view matches verses on. */
  function Number(v: Verse): int { v.number }

  /** The right-hand cell of a compare row: the rendered verse, or the
      `...` placeholder. */
  datatype Cell = Text(segments: seq<Segment>) | Ellipsis

  /** The right-hand cell for left verse number `n`; `None` stands for a
      right chapter that has not loaded. */
  function RightCell(right: Option<seq<Verse>>, n: int): (c: Cell)
    ensures c.Ellipsis? <==> right.None? || forall i :: 0 <= i < |right.value| ==> right.value[i].number != n
    ensures c.Text? ==> exists i :: 0 <= i < |right.value| && right.value[i].number == n
                                    && (forall j :: 0 <= j < i ==> right.value[j].number != n)
                                    && c.segments == RenderVerseText(right.value[i].text)
  {
    match right
    case None => Ellipsis
    case Some(vs) =>
      match FindKey(vs, Number, n)
      case None => Ellipsis
      case Some(i) => Text(RenderVerseText(vs[i].text))
  }

  datatype Row = Row(number: int, left: seq<Segment>, right: Cell)

  /** One row per left verse, in order; no rows while the left chapter has
      not loaded. */
  function CompareRows(left: Option<seq<Verse>>, right: Option<seq<Verse>>): (rows: seq<Row>)
    ensures left.None? ==> rows == []
    ensures left.Some? ==> |rows| == |left.value|
    ensures left.Some? ==> forall i :: 0 <= i < |rows| ==>
              && rows[i].number == left.value[i].number
              && (left.value[i].text == "" ==> rows[i].left == [])
              && (left.value[i].text != "" ==> WellFormedSegments(rows[i].left))
              && Unrender(rows[i].left) == left.value[i].text
              && rows[i].right == RightCell(right, left.value[i].number)
  {
    match left
    case None => []
    case Some(vs) =>
      seq(|vs|, i requires 0 <= i < |vs| =>
        Row(vs[i].number, RenderVerseText(vs[i].text), RightCell(right, vs[i].number)))
  }

  /** Comparing a chapter whose verse numbers are distinct with itself
      pairs every verse with itself: each row's right cell is the row's
      own verse, rendered. */
  lemma SelfCompare(vs: seq<Verse>)
    requires forall i, j :: 0 <= i < j < |vs| ==> vs[i].number != vs[j].number
    ensures forall i :: 0 <= i < |vs| ==> FindKey(vs, Number, vs[i].number) == Some(i)
    ensures forall i :: 0 <= i < |vs| ==> CompareRows(Some(vs), Some(vs))[i].right == Text(RenderVerseText(vs[i].text))
  {
    FindEveryKey(vs, Number);
  }

  // ---------------------------------------------------------------------
  // Verse actions
  // ---------------------------------------------------------------------

  /** The line "add to notes" hands to the study pad: `[n] text`. */
  function NoteLine(v: Verse): (line: string)
    ensures |line| > |v.text| + 3 && line[0] == '['
    ensures line[|line| - |v.text|..] == v.text
    ensures line[..|line| - |v.text|] == "[" + IntToDecimal(v.number) + "] "
    ensures ParseInt(line[1..]) == Some(v.number)
  {
    var line := "[" + IntToDecimal(v.number) + "] " + v.text;
    assert line[1..] == IntToDecimal(v.number) + ("] " + v.text);
    ParseIntOfDecimalThen(v.number, "] " + v.text);
    line
  }

  /** The note line determines the verse number and text it was made from. */
  lemma NoteLineDetermines(a: Verse, b: Verse)
    requires NoteLine(a) == NoteLine(b)
    ensures a.number == b.number && a.text == b.text
  {
    var la := NoteLine(a);
    assert a.number == b.number;
    assert la == "[" + IntToDecimal(a.number) + "] " + a.text;
    assert la == "[" + IntToDecimal(b.number) + "] " + b.text;
    var k := 1 + |IntToDecimal(a.number)| + 2;
    assert a.text == la[k..];
    assert b.text == la[k..];
  }

  /** Clicking the note button of verse `id` closes the editor when it is
      already open on that verse and otherwise opens it on that verse
      alone. */
  function ToggleVerseNote(active: Option<int>, id: int): (r: Option<int>)
    ensures r.None? <==> active == Some(id)
    ensures r.Some? ==> r.value == id
  {
    if active == Some(id) then None else Some(id)
  }

  /** The editor is shown under verse `v` exactly when it is the open one. */
  predicate EditorShown(active: Option<int>, v: Verse) {
    active == Some(v.id)
  }

  /** Clicking the same verse twice restores a closed editor, or an editor
      already open on that verse. */
  lemma ToggleTwice(active: Option<int>, id: int)
    ensures active == None || active == Some(id) ==> ToggleVerseNote(ToggleVerseNote(active, id), id) == active
    ensures active != None && active != Some(id) ==> ToggleVerseNote(ToggleVerseNote(active, id), id) == None
  {
  }

  /** After a click the editor is shown under the clicked verse exactly
      when it was not shown there before, and under no verse with another
      id. */
  lemma ToggleShowsOneEditor(active: Option<int>, clicked: Verse, other: Verse)
    requires other.id != clicked.id
    ensures EditorShown(ToggleVerseNote(active, clicked.id), clicked) <==> !EditorShown(active, clicked)
    ensures !EditorShown(ToggleVerseNote(active, clicked.id), other)
  {
  }
}

=== FILE: search_modal.dfy ===
/** The global search modal: the minimum-length guard and the request it
    sends, the merge of a response into the result envelope, which
    categories are rendered under which tab, the title, meta line and
    snippet of each result, what clicking a result does, and the reset on
    close. The request itself and the debounce timer are left to the
    caller: each function is one state transition of the component. */
module SearchModal {
  import opened Opt

  // ---------------------------------------------------------------------
  // Result items
  // ---------------------------------------------------------------------

  /** A search hit as the backend returns it. The component reads
      different fields for each `kind` (`type` in the response);
      `bookNumber` is `None` when the field is missing or null. */
  datatype Item = Item(
    kind: string,
    id: int,
    reference: string,
    headword: string,
    name: string,
    title: string,
    version: string,
    code: string,
    text: string,
    definition: string,
    description: string,
    preview: string,
    bookNumber: Option<int>,
    chapterNumber: int,
    verseNumber: int)

  /** The four result lists. `None` stands for a list the response set to
      null, which renders like an empty one. */
  datatype Results = Results(
    bible: Option<seq<Item>>,
    dictionary: Option<seq<Item>>,
    maps: Option<seq<Item>>,
    notes: Option<seq<Item>>)

  datatype Category = Bible | Dictionary | Maps | Notes

  datatype Tab = All | Only(category: Category)

  const NoResults := Results(Some([]), Some([]), Some([]), Some([]))

  function ListOf(r: Results, c: Category): Option<seq<Item>> {
    match c
    case Bible => r.bible
    case Dictionary => r.dictionary
    case Maps => r.maps
    case Notes => r.notes
  }

  /** `hasResults(category)`: the list is present and non-empty. */
  predicate HasResults(r: Results, c: Category) {
    ListOf(r, c).Some? && |ListOf(r, c).value| > 0
  }

  predicate AnyResults(r: Results) {
    HasResults(r, Bible) || HasResults(r, Dictionary) || HasResults(r, Maps) || HasResults(r, Notes)
  }

  // ---------------------------------------------------------------------
  // Component state and the search effect
  // ---------------------------------------------------------------------

  datatype State = State(query: string, results: Results, tab: Tab, loading: bool)

  function InitialState(): (s: State)
    ensures s.query == "" && s.tab == All && !s.loading && !AnyResults(s.results)
  {
    State("", NoResults, All, false)
  }

  function TabName(t: Tab): string {
    match t
    case All => "all"
    case Only(Bible) => "bible"
    case Only(Dictionary) => "dictionary"
    case Only(Maps) => "maps"
    case Only(Notes) => "notes"
  }

  /** The query string of a search request: `q`, `scope` and, when the user
      has an email, `email`. */
  datatype Request = Request(q: string, scope: string, email: Option<string>)

  /** What the search effect does when the query, the tab or the user
      changes: a query shorter than two characters clears every list and
      sends nothing; otherwise one request goes out. `userEmail` is `None`
      when there is no signed-in email. */
  datatype Effect = Cleared(state: State) | Send(request: Request)

  function OnQueryChange(s: State, userEmail: Option<string>): (e: Effect)
    ensures e.Cleared? <==> |s.query| < 2
    ensures e.Cleared? ==> e.state == s.(results := NoResults) && !AnyResults(e.state.results)
    ensures e.Send? ==> e.request.q == s.query && e.request.scope == TabName(s.tab)
    ensures e.Send? ==> (e.request.email.Some? <==> userEmail.Some? && userEmail.value != "")
    ensures e.Send? && e.request.email.Some? ==> e.request.email == userEmail
  {
    if |s.query| < 2 then Cleared(s.(results := NoResults))
    else
      var scope := if s.tab == All then "all" else TabName(s.tab);
      var email := if userEmail.Some? && userEmail.value != "" then userEmail else None;
      Send(Request(s.query, scope, email))
  }

  /** One key of a parsed response body: missing, `null`, an array, or some
      other value (`true`, a number, a non-empty string or an object, all
      truthy, or `false`, `0` or `""`, all falsy). */
  datatype Field = Missing | Null | Array(items: seq<Item>) | Other(truthy: bool)

  datatype Body = Body(bible: Field, dictionary: Field, maps: Field, notes: Field)

  predicate Truthy(f: Field) {
    f.Array? || (f.Other? && f.truthy)
  }

  function FieldOf(d: Body, c: Category): Field {
    match c
    case Bible => d.bible
    case Dictionary => d.dictionary
    case Maps => d.maps
    case Notes => d.notes
  }

  /** The guard `data.bible || data.dictionary || data.maps || data.notes`. */
  predicate AnyTruthy(d: Body) {
    Truthy(d.bible) || Truthy(d.dictionary) || Truthy(d.maps) || Truthy(d.notes)
  }

  /** The value a list takes once a field has been spread over it. */
  function Spread(prev: Option<seq<Item>>, f: Field): Option<seq<Item>> {
    match f
    case Missing => prev
    case Array(items) => Some(items)
    case _ => None
  }

  /** The merge of a response into the previous results: nothing happens
      for a null body or one in which none of the four keys is truthy;
      otherwise every key present in the body replaces the previous value
      and every missing key keeps it; a key that is `null` or not an array
      leaves no list. An array, even an empty one, is truthy. */
  function Merge(prev: Results, body: Option<Body>): (r: Results)
    ensures body.None? ==> r == prev
    ensures body.Some? && !AnyTruthy(body.value) ==> r == prev
    ensures body.Some? && body.value == Body(Missing, Missing, Missing, Missing) ==> r == prev
    ensures body.Some? && body.value.bible.Array? ==> r.bible == Some(body.value.bible.items)
    ensures body.Some? && body.value.dictionary.Array? ==> r.dictionary == Some(body.value.dictionary.items)
    ensures body.Some? && body.value.maps.Array? ==> r.maps == Some(body.value.maps.items)
    ensures body.Some? && body.value.notes.Array? ==> r.notes == Some(body.value.notes.items)
    ensures body.Some? && body.value.bible.Missing? ==> r.bible == prev.bible
    ensures body.Some? && body.value.dictionary.Missing? ==> r.dictionary == prev.dictionary
    ensures body.Some? && body.value.maps.Missing? ==> r.maps == prev.maps
    ensures body.Some? && body.value.notes.Missing? ==> r.notes == prev.notes
    ensures body.Some? && AnyTruthy(body.value) ==>
              && ((body.value.bible.Null? || body.value.bible.Other?) ==> r.bible.None?)
              && ((body.value.dictionary.Null? || body.value.dictionary.Other?) ==> r.dictionary.None?)
              && ((body.value.maps.Null? || body.value.maps.Other?) ==> r.maps.None?)
              && ((body.value.notes.Null? || body.value.notes.Other?) ==> r.notes.None?)
  {
    match body
    case None => prev
    case Some(d) =>
      if AnyTruthy(d) then
        Results(Spread(prev.bible, d.bible), Spread(prev.dictionary, d.dictionary),
                Spread(prev.maps, d.maps), Spread(prev.notes, d.notes))
      else prev
  }

  /** Applying the same response twice is applying it once. */
  lemma MergeIdempotent(prev: Results, body: Option<Body>)
    ensures Merge(Merge(prev, body), body) == Merge(prev, body)
  {
  }

  /** A response that carries all four arrays replaces the previous results
      completely. */
  lemma FullResponseReplaces(prev: Results, a: seq<Item>, b: seq<Item>, c: seq<Item>, d: seq<Item>)
    ensures Merge(prev, Some(Body(Array(a), Array(b), Array(c), Array(d))))
         == Results(Some(a), Some(b), Some(c), Some(d))
  {
  }

  /** A null next to a truthy key wipes that list, while the same null on
      its own is ignored. */
  lemma NullNeedsCompany(prev: Results, items: seq<Item>)
    ensures Merge(prev, Some(Body(Null, Missing, Missing, Missing))) == prev
    ensures Merge(prev, Some(Body(Null, Array(items), Missing, Missing))).bible == None
  {
  }

  // ---------------------------------------------------------------------
  // What is rendered
  // ---------------------------------------------------------------------

  /** `renderResults(category)` produces a section exactly when the
      category has results and the tab is `all` or that category. */
  predicate SectionShown(r: Results, t: Tab, c: Category) {
    HasResults(r, c) && (t == All || t == Only(c))
  }

  /** The sections shown, in the fixed order Bible, Dictionary, Maps,
      Notes; nothing while loading or while the query is too short. */
  function Sections(s: State): (cs: seq<Category>)
    ensures forall c :: c in cs <==> !s.loading && |s.query| >= 2 && SectionShown(s.results, s.tab, c)
    ensures s.tab.Only? ==> |cs| <= 1
  {
    if s.loading || |s.query| < 2 then []
    else
      (if SectionShown(s.results, s.tab, Bible) then [Bible] else [])
      + (if SectionShown(s.results, s.tab, Dictionary) then [Dictionary] else [])
      + (if SectionShown(s.results, s.tab, Maps) then [Maps] else [])
      + (if SectionShown(s.results, s.tab, Notes) then [Notes] else [])
  }

  /** The "no results" message: not loading, a long enough query, and all
      four lists empty, whatever the tab. */
  predicate NoResultsShown(s: State) {
    !s.loading && |s.query| >= 2 && !AnyResults(s.results)
  }

  /** The "no results" message shows, once the query is long enough and
      nothing loads, exactly when every list is null or empty. */
  lemma NoResultsMessage(s: State)
    ensures NoResultsShown(s) <==>
              && !s.loading && |s.query| >= 2
              && s.results.bible.GetOr([]) == [] && s.results.dictionary.GetOr([]) == []
              && s.results.maps.GetOr([]) == [] && s.results.notes.GetOr([]) == []
  {
  }

  /** A response with a non-empty array for some category gives that
      category results, so the message goes away. */
  lemma HitHidesMessage(s: State, d: Body, c: Category)
    requires FieldOf(d, c).Array? && FieldOf(d, c).items != []
    ensures HasResults(Merge(s.results, Some(d)), c)
    ensures !NoResultsShown(s.(results := Merge(s.results, Some(d))))
  {
  }

  /** With a long enough query and nothing loading, the panel shows a
      section or the message, except when every hit is in a category the
      tab hides: then it is blank. */
  lemma PanelContents(s: State)
    requires !s.loading && |s.query| >= 2
    ensures NoResultsShown(s) ==> Sections(s) == []
    ensures Sections(s) == [] && !NoResultsShown(s) <==>
              AnyResults(s.results) && s.tab.Only? && !HasResults(s.results, s.tab.category)
  {
    if AnyResults(s.results) && s.tab.Only? && HasResults(s.results, s.tab.category) {
      assert s.tab.category in Sections(s);
    }
    if AnyResults(s.results) && s.tab == All {
      if HasResults(s.results, Bible) { assert Bible in Sections(s); }
      else if HasResults(s.results, Dictionary) { assert Dictionary in Sections(s); }
      else if HasResults(s.results, Maps) { assert Maps in Sections(s); }
      else { assert Notes in Sections(s); }
    }
  }

  /** The result's title line. */
  function Title(item: Item): (t: string)
    ensures item.kind == "verse" ==> t == item.reference
    ensures item.kind == "dictionary" ==> t == item.headword
    ensures item.kind == "map" ==> t == item.name
    ensures item.kind == "verse_note" ==> t == "Note on " + item.reference
    ensures item.kind !in {"verse", "dictionary", "map", "verse_note"} ==> t == item.title
  {
    if item.kind == "verse" then item.reference
    else if item.kind == "dictionary" then item.headword
    else if item.kind == "map" then item.name
    else if item.kind == "verse_note" then "Note on " + item.reference
    else item.title
  }

  /** The result's meta label. */
  function Meta(item: Item): (m: string)
    ensures item.kind == "verse" ==> m == item.version
    ensures item.kind == "dictionary" ==> m == item.code
    ensures item.kind == "map" ==> m == "Map"
    ensures item.kind !in {"verse", "dictionary", "map"} ==> m == "Note"
  {
    if item.kind == "verse" then item.version
    else if item.kind == "dictionary" then item.code
    else if item.kind == "map" then "Map"
    else "Note"
  }

  /** The result's snippet. */
  function Snippet(item: Item): (s: string)
    ensures item.kind == "verse" ==> s == item.text
    ensures item.kind == "dictionary" ==> s == item.definition
    ensures item.kind == "map" ==> s == item.description
    ensures item.kind !in {"verse", "dictionary", "map"} ==> s == item.preview
  {
    if item.kind == "verse" then item.text
    else if item.kind == "dictionary" then item.definition
    else if item.kind == "map" then item.description
    else item.preview
  }

  /** A verse hit and a verse-note hit on the same reference differ in
      title and meta line: only the note carries the `Note on ` prefix and
      the `Note` label. */
  lemma VerseAndNoteDiffer(v: Item, n: Item)
    requires v.kind == "verse" && n.kind == "verse_note" && v.reference == n.reference
    ensures Title(n) == "Note on " + Title(v)
    ensures Meta(n) == "Note" && Meta(v) == v.version
    ensures Title(n) != Title(v)
  {
    assert |Title(n)| > |Title(v)|;
  }

  // ---------------------------------------------------------------------
  // Clicking a result
  // ---------------------------------------------------------------------

  /** The callback a click reaches, if any. */
  datatype Call =
    | Navigate(book: int, chapter: int, verse: int)
    | OpenDictionary(code: string)
    | Alert(message: string)
    | OpenLibrary(noteId: int)

  datatype Outcome = Outcome(call: Option<Call>, closes: bool)

  /** `bookNumber` is truthy: present and not zero. */
  predicate HasBook(item: Item) {
    item.bookNumber.Some? && item.bookNumber.value != 0
  }

  /** Click dispatch. `dictionaryHandler` and `libraryHandler` say whether
      the parent passed `onOpenDictionary` and `onOpenLibrary`. The modal
      closes exactly when a callback other than the alert ran. */
  function Click(item: Item, dictionaryHandler: bool, libraryHandler: bool): (o: Outcome)
    ensures o.closes <==> o.call.Some? && !o.call.value.Alert?
    ensures (o.call.Some? && o.call.value.Navigate?) <==> (item.kind == "verse" || item.kind == "verse_note") && HasBook(item)
    ensures o.call.Some? && o.call.value.Navigate? ==>
              o.call.value == Navigate(item.bookNumber.value, item.chapterNumber, item.verseNumber)
    ensures o.call == Some(OpenDictionary(item.code)) <==> item.kind == "dictionary" && dictionaryHandler
    ensures o.call == Some(OpenLibrary(item.id)) <==> item.kind == "study_note" && libraryHandler
    ensures (o.call.Some? && o.call.value.Alert?) <==> item.kind == "map"
    ensures item.kind !in {"verse", "verse_note", "dictionary", "map", "study_note"} ==> o == Outcome(None, false)
  {
    if item.kind == "verse" || item.kind == "verse_note" then
      if HasBook(item) then Outcome(Some(Navigate(item.bookNumber.value, item.chapterNumber, item.verseNumber)), true)
      else Outcome(None, false)
    else if item.kind == "dictionary" then
      if dictionaryHandler then Outcome(Some(OpenDictionary(item.code)), true) else Outcome(None, false)
    else if item.kind == "map" then
      Outcome(Some(Alert("Map navigation to " + item.name + " coming soon!")), false)
    else if item.kind == "study_note" then
      if libraryHandler then Outcome(Some(OpenLibrary(item.id)), true) else Outcome(None, false)
    else Outcome(None, false)
  }

  // ---------------------------------------------------------------------
  // Closing
  // ---------------------------------------------------------------------

  /** Closing the modal empties the query and every list; the tab and the
      loading flag stay as they were. */
  function Close(s: State): (r: State)
    ensures r.query == "" && !AnyResults(r.results)
    ensures r.tab == s.tab && r.loading == s.loading
  {
    s.(query := "", results := NoResults)
  }

  /** After closing, the search effect sends nothing and reopening shows
      neither sections nor the message. */
  lemma ClosedIsQuiet(s: State, userEmail: Option<string>)
    ensures OnQueryChange(Close(s), userEmail).Cleared?
    ensures Sections(Close(s)) == [] && !NoResultsShown(Close(s))
  {
  }
}

=== FILE: server.dfy ===
/** The Express backend's lookup logic over an in-memory store: the login
    decision, the dictionary lookup with its upper-cased key, the chapter
    route with its version, book, chapter order of 404s, and the books
    route. The database's `findUnique` becomes a map lookup, `findFirst`
    the first match in stored order, and `orderBy: { number: 'asc' }` a
    stable insertion sort. */
module Server {
  import opened Opt
  import opened JsText
  import opened JsArray

  // ---------------------------------------------------------------------
  // Store
  // ---------------------------------------------------------------------

  datatype User = User(email: string, name: string, password: string)

  datatype Entry = Entry(code: string, headword: string, definition: string)

  datatype VerseRow = VerseRow(id: nat, number: int, text: string)

  datatype Chapter = Chapter(id: nat, number: int, verses: seq<VerseRow>)

  datatype Book = Book(id: nat, number: int, name: string, chapters: seq<Chapter>)

  datatype Version = Version(id: nat, code: string, books: seq<Book>)

  /** Users by email, versions by code, dictionary entries by code: the
      unique keys the routes look up. */
  datatype Store = Store(users: map<string, User>, versions: map<string, Version>,
                         dictionary: map<string, Entry>)

  // ---------------------------------------------------------------------
  // Ordering
  // ---------------------------------------------------------------------

  predicate SortedBy<T>(s: seq<T>, key: T -> int) {
    forall i, j :: 0 <= i < j < |s| ==> key(s[i]) <= key(s[j])
  }

  /** The keys of `s`, in order. */
  function Keys<T>(s: seq<T>, key: T -> int): (ks: seq<int>)
    ensures |ks| == |s|
    decreases |s|
  {
    if s == [] then [] else [key(s[0])] + Keys(s[1..], key)
  }

  /** Inserts `x` before the first element with a larger key. */
  function Insert<T>(x: T, s: seq<T>, key: T -> int): (r: seq<T>)
    requires SortedBy(s, key)
    ensures SortedBy(r, key)
    ensures multiset(r) == multiset(s) + multiset{x}
    ensures |r| == |s| + 1
    decreases |s|
  {
    if s == [] || key(x) <= key(s[0]) then
      ConsSorted(x, s, key);
      [x] + s
    else
      var t := Insert(x, s[1..], key);
      assert s == [s[0]] + s[1..];
      forall k | 0 <= k < |t|
        ensures key(s[0]) <= key(t[k])
      {
        assert t[k] in multiset(s[1..]) + multiset{x};
      }
      ConsSorted(s[0], t, key);
      [s[0]] + t
  }

  /** A head no larger than anything in a sorted tail keeps it sorted. */
  lemma ConsSorted<T>(h: T, t: seq<T>, key: T -> int)
    requires SortedBy(t, key)
    requires forall k :: 0 <= k < |t| ==> key(h) <= key(t[k])
    ensures SortedBy([h] + t, key)
  {
    var r := [h] + t;
    forall i, j | 0 <= i < j < |r|
      ensures key(r[i]) <= key(r[j])
    {
      assert r[j] == t[j - 1];
      if i > 0 {
        assert r[i] == t[i - 1];
      }
    }
  }

  /** Insertion adds exactly the key of the inserted element. */
  lemma {:induction false} InsertKeys<T>(x: T, s: seq<T>, key: T -> int)
    requires SortedBy(s, key)
    ensures multiset(Keys(Insert(x, s, key), key)) == multiset(Keys(s, key)) + multiset{key(x)}
    decreases |s|
  {
    var r := Insert(x, s, key);
    assert Keys(r, key) == [key(r[0])] + Keys(r[1..], key);
    if s == [] || key(x) <= key(s[0]) {
      assert r[0] == x && r[1..] == s;
      assert multiset(Keys(r, key)) == multiset{key(x)} + multiset(Keys(s, key));
    } else {
      var t := Insert(x, s[1..], key);
      InsertKeys(x, s[1..], key);
      assert r[0] == s[0] && r[1..] == t;
      assert Keys(s, key) == [key(s[0])] + Keys(s[1..], key);
      assert multiset(Keys(r, key)) == multiset{key(s[0])} + multiset(Keys(t, key));
    }
  }

  /** `orderBy` on a key: sorted and the same elements. */
  function SortBy<T>(s: seq<T>, key: T -> int): (r: seq<T>)
    ensures SortedBy(r, key)
    ensures multiset(r) == multiset(s)
    decreases |s|
  {
    if s == [] then []
    else
      assert s == [s[0]] + s[1..];
      Insert(s[0], SortBy(s[1..], key), key)
  }

  /** Sorting keeps the multiset of keys. */
  lemma {:induction false} SortKeys<T>(s: seq<T>, key: T -> int)
    ensures multiset(Keys(SortBy(s, key), key)) == multiset(Keys(s, key))
    decreases |s|
  {
    if s != [] {
      SortKeys(s[1..], key);
      InsertKeys(s[0], SortBy(s[1..], key), key);
    }
  }

  /** Rows already in order come back unchanged. */
  lemma {:induction false} SortSortedIsIdentity<T>(s: seq<T>, key: T -> int)
    requires SortedBy(s, key)
    ensures SortBy(s, key) == s
    decreases |s|
  {
    if s != [] {
      assert SortedBy(s[1..], key) by {
        SortedTail(s, key);
      }
      SortSortedIsIdentity(s[1..], key);
      assert SortBy(s, key) == Insert(s[0], s[1..], key);
      assert s[1..] == [] || key(s[0]) <= key(s[1..][0]);
      assert [s[0]] + s[1..] == s;
    }
  }

  lemma SortedTail<T>(s: seq<T>, key: T -> int)
    requires s != [] && SortedBy(s, key)
    ensures SortedBy(s[1..], key)
  {
    forall i, j | 0 <= i < j < |s| - 1
      ensures key(s[1..][i]) <= key(s[1..][j])
    {
      assert s[1..][i] == s[i + 1] && s[1..][j] == s[j + 1];
    }
  }

  function VerseNumber(v: VerseRow): int { v.number }

  function ChapterNumber(c: Chapter): int { c.number }

  // ---------------------------------------------------------------------
  // POST /api/login
  // ---------------------------------------------------------------------

  /** The login response; a successful one carries the email and name but
      not the password. */
  datatype LoginResponse =
    | LoggedIn(email: string, name: string, token: string)
    | LoginFailed(status: nat, message: string)

  const Token := "mock-jwt-token-for-testing"

  /** The login decision. `None` stands for a field missing from the
      request body; the unique lookup with no email throws, which the route
      answers with 500. */
  function Login(st: Store, email: Option<string>, password: Option<string>): (r: LoginResponse)
    ensures r.LoggedIn? <==> (email.Some? && email.value in st.users
                             && password == Some(st.users[email.value].password))
    ensures r.LoggedIn? ==> r == LoggedIn(st.users[email.value].email, st.users[email.value].name, Token)
    ensures email.None? ==> r == LoginFailed(500, "Internal server error")
    ensures email.Some? && !r.LoggedIn? ==> r == LoginFailed(401, "Invalid email or password")
  {
    match email
    case None => LoginFailed(500, "Internal server error")
    case Some(e) =>
      if e in st.users && password == Some(st.users[e].password) then
        LoggedIn(st.users[e].email, st.users[e].name, Token)
      else
        LoginFailed(401, "Invalid email or password")
  }

  /** The response never depends on the stored password beyond the
      comparison: two stores that differ only in a user's password answer
      a correct login identically. */
  lemma LoginHidesPassword(st: Store, e: string, p1: string, p2: string)
    requires e in st.users
    ensures Login(st.(users := st.users[e := st.users[e].(password := p1)]), Some(e), Some(p1))
         == Login(st.(users := st.users[e := st.users[e].(password := p2)]), Some(e), Some(p2))
  {
  }

  /** A wrong password and an unknown email get the same answer. */
  lemma LoginFailuresAlike(st: Store, known: string, unknown: string, wrong: string)
    requires known in st.users && unknown !in st.users && wrong != st.users[known].password
    ensures Login(st, Some(known), Some(wrong)) == Login(st, Some(unknown), Some(wrong))
  {
  }

  // ---------------------------------------------------------------------
  // GET /api/dictionary/:code
  // ---------------------------------------------------------------------

  datatype DictionaryResponse = Found(entry: Entry) | NotFound(status: nat, message: string)

  /** The entry stored under the upper-cased code, or 404. */
  function Dictionary(st: Store, code: string): (r: DictionaryResponse)
    ensures r.Found? <==> Upper(code) in st.dictionary
    ensures r.Found? ==> r.entry == st.dictionary[Upper(code)]
    ensures r.NotFound? ==> r == NotFound(404, "Entry not found")
  {
    var key := Upper(code);
    if key in st.dictionary then Found(st.dictionary[key]) else NotFound(404, "Entry not found")
  }

  /** The lookup is case-insensitive: lower-casing or upper-casing the code
      first changes nothing. */
  lemma DictionaryIgnoresCase(st: Store, code: string)
    ensures Dictionary(st, Lower(code)) == Dictionary(st, code)
    ensures Dictionary(st, Upper(code)) == Dictionary(st, code)
  {
    UpperForgetsCase(code);
  }

  // ---------------------------------------------------------------------
  // GET /api/bible/chapter/:versionCode/:bookNumber/:chapterNumber
  // ---------------------------------------------------------------------

  function BookNumber(b: Book): int { b.number }

  datatype ChapterResponse =
    | ChapterText(bookName: string, chapterNumber: int, verses: seq<VerseRow>)
    | ChapterError(status: nat, message: string)

  /** A 32-bit signed integer: the range of the database's `Int` columns. */
  predicate IsInt32(n: int) {
    -0x8000_0000 <= n < 0x8000_0000
  }

  /** The number a path segment puts into the query: `parseInt`'s answer.
      `NaN`, and a number outside the `Int` column's range, make the query
      fail (`None`). */
  function PathNumber(text: string): (n: Option<int>)
    ensures n.Some? <==> ParseInt(text).Some? && IsInt32(ParseInt(text).value)
    ensures n.Some? ==> n.value == ParseInt(text).value
  {
    match ParseInt(text)
    case Some(v) => if IsInt32(v) then Some(v) else None
    case None => None
  }

  /** The chapter route. Each level is looked up only once the level above
      it was found, and the first book and chapter with the requested
      numbers are used; a path segment whose number the query cannot take
      makes the query throw, which the route answers with 500. */
  function GetChapter(st: Store, versionCode: string, bookText: string, chapterText: string): (r: ChapterResponse)
    ensures versionCode !in st.versions <==> r == ChapterError(404, "Version not found")
    ensures versionCode in st.versions && PathNumber(bookText).None? ==>
              r == ChapterError(500, "Failed to fetch chapter")
    ensures versionCode in st.versions && PathNumber(bookText).Some? ==>
              var books := st.versions[versionCode].books;
              var bi := FindKey(books, BookNumber, PathNumber(bookText).value);
              && (bi.None? <==> r == ChapterError(404, "Book not found"))
              && (bi.Some? && PathNumber(chapterText).None? ==> r == ChapterError(500, "Failed to fetch chapter"))
              && (bi.Some? && PathNumber(chapterText).Some? ==>
                    var chapters := books[bi.value].chapters;
                    var ci := FindKey(chapters, ChapterNumber, PathNumber(chapterText).value);
                    && (ci.None? <==> r == ChapterError(404, "Chapter not found"))
                    && (ci.Some? ==>
                          && r.ChapterText?
                          && r.bookName == books[bi.value].name
                          && r.chapterNumber == chapters[ci.value].number
                          && multiset(r.verses) == multiset(chapters[ci.value].verses)))
    ensures r.ChapterText? ==> SortedBy(r.verses, VerseNumber)
  {
    if versionCode !in st.versions then ChapterError(404, "Version not found")
    else
      var version := st.versions[versionCode];
      match PathNumber(bookText)
      case None => ChapterError(500, "Failed to fetch chapter")
      case Some(bn) =>
        match FindKey(version.books, BookNumber, bn)
        case None => ChapterError(404, "Book not found")
        case Some(bi) =>
          var book := version.books[bi];
          match PathNumber(chapterText)
          case None => ChapterError(500, "Failed to fetch chapter")
          case Some(cn) =>
            match FindKey(book.chapters, ChapterNumber, cn)
            case None => ChapterError(404, "Chapter not found")
            case Some(ci) =>
              var chapter := book.chapters[ci];
              ChapterText(book.name, chapter.number, SortBy(chapter.verses, VerseNumber))
  }

  /** A chapter that exists is always served, with the first matching book
      and chapter, when the path spells their numbers in decimal. Stored
      numbers fit the `Int` columns. */
  lemma ExistingChapterServed(st: Store, code: string, bi: nat, ci: nat)
    requires code in st.versions && bi < |st.versions[code].books|
    requires FindKey(st.versions[code].books, BookNumber, st.versions[code].books[bi].number) == Some(bi)
    requires ci < |st.versions[code].books[bi].chapters|
    requires FindKey(st.versions[code].books[bi].chapters, ChapterNumber, st.versions[code].books[bi].chapters[ci].number) == Some(ci)
    requires IsInt32(st.versions[code].books[bi].number) && IsInt32(st.versions[code].books[bi].chapters[ci].number)
    ensures GetChapter(st, code, IntToDecimal(st.versions[code].books[bi].number),
                       IntToDecimal(st.versions[code].books[bi].chapters[ci].number))
         == ChapterText(st.versions[code].books[bi].name, st.versions[code].books[bi].chapters[ci].number,
                        SortBy(st.versions[code].books[bi].chapters[ci].verses, VerseNumber))
  {
    ParseIntOfDecimal(st.versions[code].books[bi].number);
    ParseIntOfDecimal(st.versions[code].books[bi].chapters[ci].number);
  }

  /** A book number too wide for the `Int` column fails the query with
      500, even though no book carries it. */
  lemma WideBookNumberFails(st: Store, code: string, n: int, chapterText: string)
    requires code in st.versions && !IsInt32(n)
    ensures GetChapter(st, code, IntToDecimal(n), chapterText) == ChapterError(500, "Failed to fetch chapter")
  {
    ParseIntOfDecimal(n);
  }

  // ---------------------------------------------------------------------
  // GET /api/bible/books/:versionCode
  // ---------------------------------------------------------------------

  /** A book as the books route lists it: only the chapter numbers. */
  datatype BookSummary = BookSummary(id: nat, number: int, name: string, chapters: seq<int>)

  datatype BooksResponse = BookList(books: seq<BookSummary>) | BooksError(status: nat, message: string)

  function Summary(b: Book): (s: BookSummary)
    ensures s.id == b.id && s.number == b.number && s.name == b.name
    ensures forall i, j :: 0 <= i < j < |s.chapters| ==> s.chapters[i] <= s.chapters[j]
    ensures multiset(s.chapters) == multiset(Keys(b.chapters, ChapterNumber))
  {
    var sorted := SortBy(b.chapters, ChapterNumber);
    KeysIndexed(sorted, ChapterNumber);
    SortKeys(b.chapters, ChapterNumber);
    BookSummary(b.id, b.number, b.name, Keys(sorted, ChapterNumber))
  }

  /** `Keys` picks the key of each element at the same index. */
  lemma {:induction false} KeysIndexed<T>(s: seq<T>, key: T -> int)
    ensures forall i :: 0 <= i < |s| ==> Keys(s, key)[i] == key(s[i])
    decreases |s|
  {
    if s != [] {
      KeysIndexed(s[1..], key);
    }
  }

  /** The books route: 404 for an unknown version, otherwise its books in
      stored order, each with its chapter numbers in ascending order. */
  function GetBooks(st: Store, versionCode: string): (r: BooksResponse)
    ensures versionCode !in st.versions <==> r == BooksError(404, "Version not found")
    ensures r.BookList? ==> |r.books| == |st.versions[versionCode].books|
    ensures r.BookList? ==> forall i :: 0 <= i < |r.books| ==>
              r.books[i] == Summary(st.versions[versionCode].books[i])
  {
    if versionCode !in st.versions then BooksError(404, "Version not found")
    else
      var books := st.versions[versionCode].books;
      BookList(seq(|books|, i requires 0 <= i < |books| => Summary(books[i])))
  }
}

=== FILE: sidebar.dfy ===
/** The sidebar's book list: which version supplies the book names, the
    expand/collapse toggle, the automatic expansion of the active book, and
    the chapter buttons with their highlighting. Books are the summaries
    served by `Server.GetBooks`; the active book and chapter are numbers
    owned by the app, where `0` is falsy. */
module Sidebar {
  import opened Opt
  import Server
  import opened JsArray

  type BookSummary = Server.BookSummary

  /** `versionForNames`. */
  function VersionForNames(language: string): (code: string)
    ensures code == "UBIO" <==> language == "ua"
    ensures code == "KJV" <==> language != "ua"
  {
    if language == "ua" then "UBIO" else "KJV"
  }

  /** `handleBookClick`: the expanded book's id, `None` when every book is
      collapsed. */
  function BookClick(expanded: Option<nat>, id: nat): (r: Option<nat>)
    ensures r == Some(id) <==> expanded != Some(id)
    ensures r.Some? ==> r.value == id
  {
    if expanded == Some(id) then None else Some(id)
  }

  /** Clicking a book twice returns to where it started, if that book was
      not already the open one, or if it was. */
  lemma BookClickTwice(expanded: Option<nat>, id: nat)
    requires expanded.None? || expanded == Some(id)
    ensures BookClick(BookClick(expanded, id), id) == expanded
  {
  }

  /** Clicking a second book while the first is open moves the expansion:
      only one book's chapters are shown at a time. */
  lemma BookClickMoves(a: nat, b: nat)
    requires a != b
    ensures BookClick(BookClick(None, a), b) == Some(b)
  {
  }

  /** The key books are found by: `books.find(b => b.number === activeBook)`. */
  function Number(b: BookSummary): int { b.number }

  /** The effect on `[activeBook, books]`: with a non-empty list, the first
      book numbered like the active book, the one `find` returns, is
      expanded; with no such book, or
      no books, the expansion stays as it was. */
  function AutoExpand(books: seq<BookSummary>, activeBook: int, expanded: Option<nat>): (r: Option<nat>)
    ensures (exists i :: 0 <= i < |books| && books[i].number == activeBook) ==>
              exists i :: 0 <= i < |books| && books[i].number == activeBook
                          && (forall j :: 0 <= j < i ==> books[j].number != activeBook)
                          && r == Some(books[i].id)
    ensures (forall i :: 0 <= i < |books| ==> books[i].number != activeBook) ==> r == expanded
  {
    if books == [] then expanded
    else match FindKey(books, Number, activeBook)
      case None => expanded
      case Some(i) => Some(books[i].id)
  }

  /** The effect is idempotent: running it again changes nothing. */
  lemma AutoExpandIdempotent(books: seq<BookSummary>, activeBook: int, expanded: Option<nat>)
    ensures AutoExpand(books, activeBook, AutoExpand(books, activeBook, expanded))
         == AutoExpand(books, activeBook, expanded)
  {
  }

  /** The book list arrives: `None` is an answer that is not an array, or a
      failed request, and empties the list. An array becomes the list, and
      when the active book is truthy the first book with its number is
      expanded. The first component is the new list. */
  function BooksLoaded(response: Option<seq<BookSummary>>, activeBook: int, expanded: Option<nat>): (r: (seq<BookSummary>, Option<nat>))
    ensures response.None? ==> r == ([], expanded)
    ensures response.Some? ==> r.0 == response.value
    ensures activeBook == 0 ==> r.1 == expanded
    ensures response.Some? && activeBook != 0 ==> r.1 == AutoExpand(response.value, activeBook, expanded)
  {
    match response
    case None => ([], expanded)
    case Some(data) =>
      if activeBook != 0 then
        match FindKey(data, Number, activeBook)
        case Some(i) => (data, Some(data[i].id))
        case None => (data, expanded)
      else (data, expanded)
  }

  /** The request behind the list: the books route for the language's
      version. */
  lemma BooksForLanguage(st: Server.Store, language: string)
    requires VersionForNames(language) in st.versions
    ensures Server.GetBooks(st, VersionForNames(language)).BookList?
    ensures |Server.GetBooks(st, VersionForNames(language)).books|
         == |st.versions[VersionForNames(language)].books|
  {
  }

  // ---------------------------------------------------------------------
  // Chapter buttons
  // ---------------------------------------------------------------------

  /** A book row is highlighted when it is the active book. */
  predicate BookHighlighted(activeBook: int, b: BookSummary) {
    activeBook == b.number
  }

  /** A chapter button is highlighted when both its book and its chapter
      are the active ones. */
  predicate ChapterHighlighted(activeBook: int, activeChapter: int, b: BookSummary, chapter: int) {
    activeBook == b.number && activeChapter == chapter
  }

  /** The app's `onNavigate` target of a chapter button. */
  datatype Target = Target(book: int, chapter: int)

  /** A chapter button navigates to its book's and its own number; the
      button is highlighted exactly when that target is the active one. */
  function ChapterClick(b: BookSummary, chapter: int): (t: Target)
    ensures forall ab: int, ac: int {:trigger ChapterHighlighted(ab, ac, b, chapter)} ::
              ChapterHighlighted(ab, ac, b, chapter) <==> t == Target(ab, ac)
  {
    Target(b.number, chapter)
  }

  /** With distinct book numbers and distinct chapter numbers within each
      book, at most one chapter button in the whole list is highlighted. */
  lemma OneChapterHighlighted(books: seq<BookSummary>, ab: int, ac: int,
                              i: nat, j: nat, i2: nat, j2: nat)
    requires forall p, q :: 0 <= p < q < |books| ==> books[p].number != books[q].number
    requires i < |books| && j < |books[i].chapters|
    requires i2 < |books| && j2 < |books[i2].chapters|
    requires forall p, q :: 0 <= p < q < |books[i].chapters| ==> books[i].chapters[p] != books[i].chapters[q]
    requires ChapterHighlighted(ab, ac, books[i], books[i].chapters[j])
    requires ChapterHighlighted(ab, ac, books[i2], books[i2].chapters[j2])
    ensures i == i2 && j == j2
  {
    assert books[i].number == books[i2].number;
  }

  /** After navigating from a chapter button, the effect keeps that button's
      book expanded, provided book numbers are distinct. */
  lemma NavigateKeepsBookOpen(books: seq<BookSummary>, i: nat, chapter: int, expanded: Option<nat>)
    requires i < |books|
    requires forall p, q :: 0 <= p < q < |books| ==> books[p].number != books[q].number
    ensures AutoExpand(books, ChapterClick(books[i], chapter).book, expanded) == Some(books[i].id)
  {
    var r := FindKey(books, Number, books[i].number);
    assert r.Some? && books[r.value].number == books[i].number;
  }
}

=== FILE: strongs_examples.dfy ===
/** Concrete verse texts run through the Reader's marker rendering: the
    opening of the tagged Genesis 1:1 of the `KJV-STR` seed data, and each kind of
    malformed marker. */
module StrongsExamples {
  import opened StrongsMarkup

  /** The opening of Genesis 1:1 as tagged in the `KJV-STR` seed data:
      plain text, one reference, plain text. */
  lemma GenesisOpening()
    ensures RenderVerseText("In " + "<" + "H7225" + ">" + " the beginning")
         == [Plain("In "), Ref("H7225"), Plain(" the beginning")]
  {
    OneMarker("In ", "H7225", " the beginning");
  }

  /** Text with exactly one marker, and no other `<`, renders as the plain
      text before it, the reference, and the plain text after it. */
  lemma OneMarker(p: string, c: string, t: string)
    requires forall k :: 0 <= k < |p| ==> p[k] != '<'
    requires forall k :: 0 <= k < |t| ==> t[k] != '<'
    requires IsCode(c) && t != ""
    ensures RenderVerseText(p + "<" + c + ">" + t) == [Plain(p), Ref(c), Plain(t)]
  {
    NoOpenNoMarker(p);
    NoOpenNoMarker(t);
    RenderPlain(t);
    RenderCons(p, c, t);
  }

  /** Lower-case letters are not markers: `<h12>` stays plain. */
  lemma LowerCaseLetterStaysPlain()
    ensures RenderVerseText("<h12>") == [Plain("<h12>")]
  {
    OpenOnlyAtStart("<h12>");
    RenderPlain("<h12>");
  }

  /** A marker needs at least one digit: `<H>` stays plain. */
  lemma NoDigitsStaysPlain()
    ensures RenderVerseText("<H>") == [Plain("<H>")]
  {
    OpenOnlyAtStart("<H>");
    RenderPlain("<H>");
  }

  /** An unclosed marker stays plain: `<H12`. */
  lemma UnclosedStaysPlain()
    ensures RenderVerseText("<H12") == [Plain("<H12")]
  {
    OpenOnlyAtStart("<H12");
    RenderPlain("<H12");
  }

  /** Only `H` and `G` are Strong's letters: `<X1>` stays plain. */
  lemma OtherLetterStaysPlain()
    ensures RenderVerseText("<X1>") == [Plain("<X1>")]
  {
    OpenOnlyAtStart("<X1>");
    RenderPlain("<X1>");
  }

  /** A stray `<` before a marker stays in the plain text, and a marker at
      the very end is followed by an empty plain part. */
  lemma StrayOpenBeforeMarker()
    ensures RenderVerseText("<<G1>") == [Plain("<"), Ref("G1"), Plain("")]
  {
    OpenOnlyAtStart("<");
    assert IsCode("G1");
    RenderEndsWithMarker("<", "G1");
    assert "<" + "<" + "G1" + ">" == "<<G1>";
  }

  /** Empty verse text renders nothing at all. */
  lemma EmptyRendersNothing()
    ensures RenderVerseText("") == []
  {
  }
}

=== FILE: strongs_markup.dfy ===
/** Verse text with inline Strong's markers, as the Reader renders it.

    A marker is `<`, then `H` (Hebrew) or `G` (Greek), then one or more
    ASCII digits, then `>`: the regular expression `<[HG]\d+>`. Rendering
    first splits the text on markers with a capturing split, which yields
    plain text and markers alternately, then turns every part that is a
    whole marker into a clickable reference whose code is the marker with
    its angle brackets removed. Anything else, including malformed markers,
    stays plain text. */
module StrongsMarkup {
  import opened Opt
  import opened JsText

  // ---------------------------------------------------------------------
  // Markers and codes
  // ---------------------------------------------------------------------

  predicate IsStrongsLetter(c: char) {
    c == 'H' || c == 'G'
  }

  /** `m` matches `^<[HG]\d+>$`. */
  predicate IsMarker(m: string) {
    && |m| >= 4
    && m[0] == '<'
    && IsStrongsLetter(m[1])
    && AllDigits(m[2..|m| - 1])
    && m[|m| - 1] == '>'
  }

  /** A Strong's code as the markup carries it: `H` or `G` followed by at
      least one digit. */
  predicate IsCode(c: string) {
    |c| >= 2 && IsStrongsLetter(c[0]) && AllDigits(c[1..])
  }

  /** No part of `p` is a whole marker. */
  predicate NoMarker(p: string) {
    forall i, j :: 0 <= i <= j <= |p| ==> !IsMarker(p[i..j])
  }

  /** Inside a marker, `<` occurs only at the very start. */
  lemma MarkerHasOneOpen(m: string)
    ensures IsMarker(m) ==> forall k :: 1 <= k < |m| ==> m[k] != '<'
  {
    if IsMarker(m) {
      forall k | 1 <= k < |m|
        ensures m[k] != '<'
      {
        if 2 <= k < |m| - 1 {
          assert m[k] == m[2..|m| - 1][k - 2];
        }
      }
    }
  }

  /** Text without any `<` has no marker in it. */
  lemma NoOpenNoMarker(p: string)
    requires forall k :: 0 <= k < |p| ==> p[k] != '<'
    ensures NoMarker(p)
  {
    forall i, j | 0 <= i <= j <= |p|
      ensures !IsMarker(p[i..j])
    {
      if j - i >= 1 {
        assert p[i..j][0] == p[i];
      }
    }
  }

  // ---------------------------------------------------------------------
  // The scanner
  // ---------------------------------------------------------------------

  /** Length of the marker that starts `s`, or 0 when `s` does not start
      with one. A marker that starts at a given place has only one possible
      length, because its digits are followed by `>`, not by a digit. */
  function MarkerLen(s: string): (n: nat)
    ensures n <= |s|
    ensures n > 0 ==> IsMarker(s[..n])
  {
    if |s| >= 2 && s[0] == '<' && IsStrongsLetter(s[1]) then
      var k := DigitRun(s[2..]);
      if k > 0 && 2 + k < |s| && s[2 + k] == '>' then
        assert s[..k + 3][2..k + 2] == s[2..][..k];
        k + 3
      else 0
    else 0
  }

  /** A marker that starts `s` is the one `MarkerLen` measures: no other
      prefix of `s` is a marker. */
  lemma MarkerLenUnique(s: string, m: nat)
    requires m <= |s|
    ensures IsMarker(s[..m]) ==> MarkerLen(s) == m
  {
    if IsMarker(s[..m]) {
      MarkerPrefix(s, m);
    }
  }

  /** A marker that starts `s` ends right after the run of digits that
      follows its letter. */
  lemma MarkerPrefix(s: string, m: nat)
    requires m <= |s| && IsMarker(s[..m])
    ensures |s| >= 2 && s[0] == '<' && IsStrongsLetter(s[1])
    ensures DigitRun(s[2..]) == m - 3 && s[m - 1] == '>'
  {
    var d := s[..m][2..m - 1];
    assert s[2..] == d + s[m - 1..];
    assert s[m - 1] == s[..m][m - 1];
    DigitRunOfDigits(d, s[m - 1..]);
  }

  /** Index of the leftmost marker in `s`, found by scanning left to right. */
  function FindMarker(s: string): (r: Option<nat>)
    ensures r.None? ==> forall j :: 0 <= j < |s| ==> MarkerLen(s[j..]) == 0
    ensures r.Some? ==> r.value < |s| && MarkerLen(s[r.value..]) > 0
    ensures r.Some? ==> forall j :: 0 <= j < r.value ==> MarkerLen(s[j..]) == 0
    decreases |s|
  {
    if |s| == 0 then None
    else if MarkerLen(s) > 0 then Some(0)
    else
      match FindMarker(s[1..])
      case None =>
        NoStartShift(s, |s| - 1);
        None
      case Some(i) =>
        assert s[1..][i..] == s[i + 1..];
        NoStartShift(s, i);
        Some(i + 1)
  }

  /** No marker starts in the first `k` places after the head of `s`, nor at
      the head: then none starts in its first `k + 1` places. */
  lemma NoStartShift(s: string, k: nat)
    requires k < |s| && MarkerLen(s) == 0
    requires forall j :: 0 <= j < k ==> MarkerLen(s[1..][j..]) == 0
    ensures forall j :: 0 <= j < k + 1 ==> MarkerLen(s[j..]) == 0
  {
    forall j | 1 <= j < k + 1
      ensures MarkerLen(s[j..]) == 0
    {
      assert s[1..][j - 1..] == s[j..];
    }
  }

  /** `text.split(/(<[HG]\d+>)/g)`: the pieces between markers, with each
      matched marker kept in the result between its neighbours. */
  function Split(s: string): (parts: seq<string>)
    ensures WellFormedSplit(parts)
    ensures Concat(parts) == s
    decreases |s|
  {
    match FindMarker(s)
    case None =>
      FreeOfMarkers(s);
      [s]
    case Some(i) =>
      var n := MarkerLen(s[i..]);
      SplitAtMarker(s, i, n);
      var rest := Split(s[i + n..]);
      ConsSplit(s[..i], s[i..i + n], rest);
      [s[..i], s[i..i + n]] + rest
  }

  /** What the scanner's answer says about the text around the marker. */
  lemma SplitAtMarker(s: string, i: nat, n: nat)
    requires FindMarker(s) == Some(i) && n == MarkerLen(s[i..])
    ensures 0 < n && i + n <= |s|
    ensures NoMarker(s[..i]) && IsMarker(s[i..i + n])
    ensures s == s[..i] + s[i..i + n] + s[i + n..]
  {
    MarkerAt(s, i, n);
    PlainBeforeMarker(s, i);
    ThreeWay(s, i, n);
  }

  lemma ThreeWay(s: string, i: nat, n: nat)
    requires i + n <= |s|
    ensures s == s[..i] + s[i..i + n] + s[i + n..]
  {
  }

  /** Nothing before the leftmost marker is a marker. */
  lemma PlainBeforeMarker(s: string, i: nat)
    requires FindMarker(s) == Some(i)
    ensures NoMarker(s[..i])
  {
    assert forall j :: 0 <= j < i ==> MarkerLen(s[j..]) == 0;
    NoStartBefore(s, i);
  }

  /** Where no marker starts in the first `i` places of `s`, its first `i`
      characters hold no marker. */
  lemma NoStartBefore(s: string, i: nat)
    requires i <= |s|
    requires forall j :: 0 <= j < i ==> MarkerLen(s[j..]) == 0
    ensures NoMarker(s[..i])
  {
    forall a, b | 0 <= a <= b <= i
      ensures !IsMarker(s[..i][a..b])
    {
      if a < i {
        NoMarkerBetween(s, i, a, b);
      }
    }
  }

  lemma NoMarkerBetween(s: string, i: nat, a: nat, b: nat)
    requires a < i && a <= b <= i <= |s|
    requires MarkerLen(s[a..]) == 0
    ensures !IsMarker(s[..i][a..b])
  {
    assert s[..i][a..b] == s[a..][..b - a];
    NoMarkerAt(s[a..], b - a);
  }

  /** Where no marker starts, no prefix is a marker. */
  lemma NoMarkerAt(t: string, m: nat)
    requires MarkerLen(t) == 0 && m <= |t|
    ensures !IsMarker(t[..m])
  {
    MarkerLenUnique(t, m);
  }

  lemma MarkerAt(s: string, i: nat, n: nat)
    requires i < |s| && n == MarkerLen(s[i..]) && n > 0
    ensures i + n <= |s| && IsMarker(s[i..i + n])
  {
    assert s[i..][..n] == s[i..i + n];
  }

  /** The shape a capturing split produces: an odd number of parts, the
      odd-indexed ones whole markers, the even-indexed ones free of them. */
  predicate WellFormedSplit(parts: seq<string>) {
    && |parts| % 2 == 1
    && (forall k :: 0 <= k < |parts| && k % 2 == 1 ==> IsMarker(parts[k]))
    && (forall k :: 0 <= k < |parts| && k % 2 == 0 ==> NoMarker(parts[k]))
  }

  function Concat(parts: seq<string>): string {
    if parts == [] then "" else parts[0] + Concat(parts[1..])
  }

  /** A prefix in which the scanner finds no marker start has no marker
      anywhere in it. */
  lemma FreeOfMarkers(p: string)
    requires forall j :: 0 <= j < |p| ==> MarkerLen(p[j..]) == 0
    ensures NoMarker(p)
  {
    forall i, j | 0 <= i <= j <= |p|
      ensures !IsMarker(p[i..j])
    {
      if i < |p| {
        assert p[i..][..j - i] == p[i..j];
        NoMarkerAt(p[i..], j - i);
      }
    }
  }

  lemma ConsSplit(p: string, m: string, rest: seq<string>)
    requires NoMarker(p) && IsMarker(m) && WellFormedSplit(rest)
    ensures WellFormedSplit([p, m] + rest)
    ensures Concat([p, m] + rest) == p + m + Concat(rest)
  {
    var all := [p, m] + rest;
    assert all[1..] == [m] + rest && all[1..][1..] == rest;
    forall k | 2 <= k < |all|
      ensures all[k] == rest[k - 2]
    {
    }
  }

  // ---------------------------------------------------------------------
  // Uniqueness: the split is the only well-formed decomposition
  // ---------------------------------------------------------------------

  /** If `p` is free of markers and a marker `m` follows it, the leftmost
      marker of `p + m + t` starts exactly where `m` does. */
  lemma FirstMarkerAfterPlain(p: string, m: string, t: string)
    requires NoMarker(p) && IsMarker(m)
    ensures FindMarker(p + m + t) == Some(|p|)
    ensures MarkerLen((p + m + t)[|p|..]) == |m|
  {
    var s := p + m + t;
    assert s[|p|..][..|m|] == m;
    MarkerLenUnique(s[|p|..], |m|);
    assert s[|p|] == '<';
    forall j | 0 <= j < |p|
      ensures MarkerLen(s[j..]) == 0
    {
      var n := MarkerLen(s[j..]);
      assert s[j..][..n] == s[j..j + n];
      MarkerHasOneOpen(s[j..j + n]);
      assert j + n <= |p| ==> s[j..j + n] == p[j..j + n];
    }
  }

  /** The tail of a marker-free text has no marker start. */
  lemma NoMarkerStarts(p: string)
    requires NoMarker(p)
    ensures forall j :: 0 <= j < |p| ==> MarkerLen(p[j..]) == 0
  {
    forall j | 0 <= j < |p|
      ensures MarkerLen(p[j..]) == 0
    {
      var n := MarkerLen(p[j..]);
      assert p[j..][..n] == p[j..j + n];
    }
  }

  /** Any decomposition of `s` into alternating marker-free text and whole
      markers is the one `Split` computes. */
  lemma {:induction false} SplitUnique(s: string, parts: seq<string>)
    requires WellFormedSplit(parts)
    requires Concat(parts) == s
    ensures Split(s) == parts
    decreases |parts|
  {
    if |parts| == 1 {
      assert s == parts[0];
      NoMarkerStarts(s);
    } else {
      var p, m, rest := parts[0], parts[1], parts[2..];
      assert parts == [p, m] + rest;
      assert s == p + m + Concat(rest) by {
        assert parts[1..] == [m] + rest && parts[1..][1..] == rest;
      }
      assert WellFormedSplit(rest) by {
        forall k | 0 <= k < |rest|
          ensures rest[k] == parts[k + 2]
        {
        }
      }
      SplitUnique(Concat(rest), rest);
      SplitCons(p, m, Concat(rest));
    }
  }

  /** Marker-free text followed by a marker splits into that text, that
      marker, and the split of what follows. */
  lemma SplitCons(p: string, m: string, t: string)
    requires NoMarker(p) && IsMarker(m)
    ensures Split(p + m + t) == [p, m] + Split(t)
  {
    var s := p + m + t;
    FirstMarkerAfterPlain(p, m, t);
    assert s[..|p|] == p;
    assert s[|p|..|p| + |m|] == m;
    assert s[|p| + |m|..] == t;
  }

  // ---------------------------------------------------------------------
  // Segments: what the Reader shows
  // ---------------------------------------------------------------------

  datatype Segment = Plain(text: string) | Ref(code: string)

  /** `part.replace(/[<>]/g, '')`: every angle bracket removed. */
  function StripBrackets(p: string): (r: string)
    ensures forall k :: 0 <= k < |r| ==> r[k] != '<' && r[k] != '>'
    ensures |r| <= |p|
  {
    if p == [] then ""
    else if p[0] == '<' || p[0] == '>' then StripBrackets(p[1..])
    else [p[0]] + StripBrackets(p[1..])
  }

  /** Stripping the brackets of a whole marker leaves its code. */
  lemma StripMarker(m: string)
    requires IsMarker(m)
    ensures StripBrackets(m) == m[1..|m| - 1]
    ensures IsCode(StripBrackets(m))
  {
    var inner := m[1..|m| - 1];
    assert m == ['<'] + inner + ['>'];
    NoBracketsKept(inner);
    StripAppend(['<'] + inner, ['>']);
    StripAppend(['<'], inner);
    assert inner[1..] == m[2..|m| - 1];
  }

  lemma {:induction false} NoBracketsKept(p: string)
    requires forall k :: 0 <= k < |p| ==> p[k] != '<' && p[k] != '>'
    ensures StripBrackets(p) == p
    decreases |p|
  {
    if p != [] {
      NoBracketsKept(p[1..]);
    }
  }

  lemma {:induction false} StripAppend(a: string, b: string)
    ensures StripBrackets(a + b) == StripBrackets(a) + StripBrackets(b)
    decreases |a|
  {
    if a != [] {
      assert (a + b)[0] == a[0];
      assert (a + b)[1..] == a[1..] + b;
      StripAppend(a[1..], b);
      if a[0] != '<' && a[0] != '>' {
        assert StripBrackets(a + b) == [a[0]] + StripBrackets(a[1..] + b);
        assert StripBrackets(a) == [a[0]] + StripBrackets(a[1..]);
      }
    } else {
      assert a + b == b;
    }
  }

  /** One rendered part: a whole marker becomes a reference to its code,
      anything else is shown as it is. */
  function Classify(part: string): (seg: Segment)
    ensures seg.Ref? <==> IsMarker(part)
    ensures seg.Ref? ==> IsCode(seg.code) && part == "<" + seg.code + ">"
    ensures seg.Plain? ==> seg.text == part
  {
    if IsMarker(part) then
      StripMarker(part);
      Ref(StripBrackets(part))
    else Plain(part)
  }

  /** `renderVerseText`: empty text renders nothing; otherwise every part of
      the split is classified, in order. */
  function RenderVerseText(text: string): (segs: seq<Segment>)
    ensures text == "" <==> segs == []
    ensures text != "" ==> WellFormedSegments(segs)
    ensures Unrender(segs) == text
  {
    if text == "" then []
    else
      var parts := Split(text);
      var segs := seq(|parts|, k requires 0 <= k < |parts| => Classify(parts[k]));
      assert forall k :: 0 <= k < |parts| && k % 2 == 0 ==> !IsMarker(parts[k]) by {
        forall k | 0 <= k < |parts| && k % 2 == 0
          ensures !IsMarker(parts[k])
        {
          assert parts[k][0..|parts[k]|] == parts[k];
        }
      }
      UnrenderParts(parts, segs);
      segs
  }

  /** What a reader sees as the text of the segments, with each reference
      written back as its marker. */
  function Unrender(segs: seq<Segment>): string {
    if segs == [] then "" else SegmentText(segs[0]) + Unrender(segs[1..])
  }

  /** A segment as it stands in the verse text. */
  function SegmentText(seg: Segment): string {
    match seg
    case Plain(t) => t
    case Ref(c) => "<" + c + ">"
  }

  /** Plain text and references alternate, starting and ending with plain
      text; plain text holds no marker and every reference a valid code. */
  predicate WellFormedSegments(segs: seq<Segment>) {
    && |segs| % 2 == 1
    && (forall k :: 0 <= k < |segs| ==> (segs[k].Ref? <==> k % 2 == 1))
    && (forall k :: 0 <= k < |segs| && segs[k].Ref? ==> IsCode(segs[k].code))
    && (forall k :: 0 <= k < |segs| && segs[k].Plain? ==> NoMarker(segs[k].text))
  }

  lemma {:induction false} UnrenderParts(parts: seq<string>, segs: seq<Segment>)
    requires |segs| == |parts|
    requires forall k :: 0 <= k < |parts| ==> segs[k] == Classify(parts[k])
    ensures Unrender(segs) == Concat(parts)
    decreases |parts|
  {
    if parts != [] {
      UnrenderParts(parts[1..], segs[1..]);
    }
  }

  /** The parts a segment list was rendered from. */
  function Parts(segs: seq<Segment>): (parts: seq<string>)
    ensures |parts| == |segs|
    ensures forall k :: 0 <= k < |segs| ==> parts[k] == SegmentText(segs[k])
  {
    seq(|segs|, k requires 0 <= k < |segs| => SegmentText(segs[k]))
  }

  /** The rendering is the only well-formed segment list that reads back as
      the text: whatever alternates plain, marker-free text with valid
      references and spells `text` is what the Reader shows. */
  lemma RenderUnique(text: string, segs: seq<Segment>)
    requires text != ""
    requires WellFormedSegments(segs)
    requires Unrender(segs) == text
    ensures RenderVerseText(text) == segs
  {
    var parts := Parts(segs);
    forall k | 0 <= k < |segs|
      ensures segs[k] == Classify(parts[k])
      ensures k % 2 == 1 ==> IsMarker(parts[k])
      ensures k % 2 == 0 ==> NoMarker(parts[k])
    {
      ClassifyText(segs[k]);
    }
    assert WellFormedSplit(parts);
    UnrenderParts(parts, segs);
    SplitUnique(text, parts);
  }

  /** A well-formed segment, written back into the text, is classified as
      itself. */
  lemma ClassifyText(seg: Segment)
    requires seg.Ref? ==> IsCode(seg.code)
    requires seg.Plain? ==> NoMarker(seg.text)
    ensures Classify(SegmentText(seg)) == seg
    ensures IsMarker(SegmentText(seg)) <==> seg.Ref?
  {
    var part := SegmentText(seg);
    if seg.Ref? {
      var c := seg.code;
      assert IsMarker(part) by {
        assert part[2..|part| - 1] == c[1..];
      }
      StripMarker(part);
      assert part[1..|part| - 1] == c;
    } else {
      assert part[0..|part|] == part;
    }
  }

  /** Text without a `<` renders as one plain segment, the text itself. */
  lemma PlainTextRendersWhole(text: string)
    requires text != ""
    requires forall k :: 0 <= k < |text| ==> text[k] != '<'
    ensures RenderVerseText(text) == [Plain(text)]
  {
    NoOpenNoMarker(text);
    RenderUnique(text, [Plain(text)]);
  }

  // ---------------------------------------------------------------------
  // Rendering piece by piece
  // ---------------------------------------------------------------------

  lemma {:induction false} UnrenderAppend(a: seq<Segment>, b: seq<Segment>)
    ensures Unrender(a + b) == Unrender(a) + Unrender(b)
    decreases |a|
  {
    if a == [] {
      assert a + b == b;
    } else {
      assert (a + b)[0] == a[0] && (a + b)[1..] == a[1..] + b;
      UnrenderAppend(a[1..], b);
      assert Unrender(a + b) == SegmentText(a[0]) + (Unrender(a[1..]) + Unrender(b));
    }
  }

  /** Text that opens with marker-free text and a marker renders as that
      text, then a reference to the marker's code, then the rest. */
  lemma RenderCons(p: string, c: string, t: string)
    requires NoMarker(p) && IsCode(c) && t != ""
    ensures RenderVerseText(p + "<" + c + ">" + t)
         == [Plain(p), Ref(c)] + RenderVerseText(t)
  {
    RenderConsOf(p, c, t, RenderVerseText(t));
  }

  lemma RenderConsOf(p: string, c: string, t: string, rest: seq<Segment>)
    requires NoMarker(p) && IsCode(c) && t != ""
    requires WellFormedSegments(rest) && Unrender(rest) == t
    ensures RenderVerseText(p + "<" + c + ">" + t) == [Plain(p), Ref(c)] + rest
  {
    var text := p + "<" + c + ">" + t;
    var segs := [Plain(p), Ref(c)] + rest;
    assert WellFormedSegments(segs) by {
      ConsSegments(p, c, rest);
    }
    UnrenderCons(p, c, rest);
    RenderUnique(text, segs);
  }

  lemma ConsSegments(p: string, c: string, rest: seq<Segment>)
    requires NoMarker(p) && IsCode(c) && WellFormedSegments(rest)
    ensures WellFormedSegments([Plain(p), Ref(c)] + rest)
  {
    var segs := [Plain(p), Ref(c)] + rest;
    forall k | 2 <= k < |segs|
      ensures segs[k] == rest[k - 2]
    {
    }
  }

  lemma UnrenderCons(p: string, c: string, rest: seq<Segment>)
    ensures Unrender([Plain(p), Ref(c)] + rest) == p + "<" + c + ">" + Unrender(rest)
  {
    var u := Unrender(rest);
    assert Unrender([Plain(p), Ref(c)] + rest) == Unrender([Plain(p), Ref(c)]) + u by {
      UnrenderAppend([Plain(p), Ref(c)], rest);
    }
    assert Unrender([Plain(p), Ref(c)]) == p + ("<" + c + ">") by {
      UnrenderPair(p, c);
    }
    assert p + ("<" + c + ">") + u == p + "<" + c + ">" + u;
  }

  lemma UnrenderPair(p: string, c: string)
    ensures Unrender([Plain(p), Ref(c)]) == p + ("<" + c + ">")
  {
    var segs := [Plain(p), Ref(c)];
    assert segs[1..] == [Ref(c)] && segs[1..][1..] == [];
    assert Unrender([Ref(c)]) == SegmentText(Ref(c)) + Unrender([]);
  }

  /** A marker at the very end leaves an empty plain part after it, as a
      capturing split does. */
  lemma RenderEndsWithMarker(p: string, c: string)
    requires NoMarker(p) && IsCode(c)
    ensures RenderVerseText(p + "<" + c + ">") == [Plain(p), Ref(c), Plain("")]
  {
    var text := p + "<" + c + ">";
    var segs := [Plain(p), Ref(c), Plain("")];
    assert WellFormedSegments(segs) by {
      assert NoMarker("") by {
        NoOpenNoMarker("");
      }
      ConsSegments(p, c, [Plain("")]);
      assert segs == [Plain(p), Ref(c)] + [Plain("")];
    }
    assert Unrender(segs) == text by {
      assert segs == [Plain(p), Ref(c)] + [Plain("")];
      UnrenderAppend([Plain(p), Ref(c)], [Plain("")]);
      UnrenderPair(p, c);
      assert Unrender([Plain("")]) == "" by {
        assert [Plain("")][1..] == [];
      }
    }
    RenderUnique(text, segs);
  }

  /** Marker-free, non-empty text renders as a single plain segment. */
  lemma RenderPlain(p: string)
    requires NoMarker(p) && p != ""
    ensures RenderVerseText(p) == [Plain(p)]
  {
    RenderUnique(p, [Plain(p)]);
  }

  /** Text whose only `<` is its first character, where no marker starts,
      has no marker at all. */
  lemma OpenOnlyAtStart(p: string)
    requires |p| > 0 && p[0] == '<' && MarkerLen(p) == 0
    requires forall k :: 1 <= k < |p| ==> p[k] != '<'
    ensures NoMarker(p)
  {
    forall i, j | 0 <= i <= j <= |p|
      ensures !IsMarker(p[i..j])
    {
      if i < j {
        assert p[i..j][0] == p[i];
        assert p[i..j] == p[i..][..j - i];
        if i == 0 {
          NoMarkerAt(p, j);
        }
      }
    }
  }

  // ---------------------------------------------------------------------
  // Tagging and rendering back
  // ---------------------------------------------------------------------

  /** Verse text as the tagging scripts write it: words, each followed by
      the marker of a code, and the words after the last marker. */
  function Tag(words: seq<string>, codes: seq<string>): string
    requires |words| == |codes| + 1
  {
    if codes == [] then words[0]
    else words[0] + "<" + codes[0] + ">" + Tag(words[1..], codes[1..])
  }

  /** The segments that tagged text should render as. */
  function Tagged(words: seq<string>, codes: seq<string>): seq<Segment>
    requires |words| == |codes| + 1
  {
    if codes == [] then [Plain(words[0])]
    else [Plain(words[0]), Ref(codes[0])] + Tagged(words[1..], codes[1..])
  }

  /** Round trip: tagging marker-free words with valid codes and rendering
      the result gives back exactly those words and codes, in order. */
  lemma RenderTag(words: seq<string>, codes: seq<string>)
    requires |words| == |codes| + 1
    requires forall k :: 0 <= k < |words| ==> NoMarker(words[k])
    requires forall k :: 0 <= k < |codes| ==> IsCode(codes[k])
    requires codes != [] || words[0] != ""
    ensures RenderVerseText(Tag(words, codes)) == Tagged(words, codes)
  {
    TaggedWellFormed(words, codes);
    UnrenderTagged(words, codes);
    if codes != [] {
      assert |Tag(words, codes)| >= 3;
    }
    RenderUnique(Tag(words, codes), Tagged(words, codes));
  }

  lemma {:induction false} TaggedWellFormed(words: seq<string>, codes: seq<string>)
    requires |words| == |codes| + 1
    requires forall k :: 0 <= k < |words| ==> NoMarker(words[k])
    requires forall k :: 0 <= k < |codes| ==> IsCode(codes[k])
    ensures WellFormedSegments(Tagged(words, codes))
    decreases |codes|
  {
    if codes != [] {
      assert forall k :: 0 <= k < |words| - 1 ==> words[1..][k] == words[k + 1];
      assert forall k :: 0 <= k < |codes| - 1 ==> codes[1..][k] == codes[k + 1];
      TaggedWellFormed(words[1..], codes[1..]);
      ConsSegments(words[0], codes[0], Tagged(words[1..], codes[1..]));
    }
  }

  lemma {:induction false} UnrenderTagged(words: seq<string>, codes: seq<string>)
    requires |words| == |codes| + 1
    ensures Unrender(Tagged(words, codes)) == Tag(words, codes)
    decreases |codes|
  {
    if codes == [] {
      assert [Plain(words[0])][1..] == [];
    } else {
      var rest := Tagged(words[1..], codes[1..]);
      UnrenderTagged(words[1..], codes[1..]);
      UnrenderAppend([Plain(words[0]), Ref(codes[0])], rest);
      UnrenderPair(words[0], codes[0]);
      assert words[0] + ("<" + codes[0] + ">") + Tag(words[1..], codes[1..])
          == words[0] + "<" + codes[0] + ">" + Tag(words[1..], codes[1..]);
    }
  }
}

=== FILE: study_panel.dfy ===
/** The study panel: the Strong's dictionary lookup with its code
    normalisation, the handling of the lookup's answer, the consumption of
    a code sent over from the Reader, and the guards on saving the study
    pad to the library. The dictionary request is answered by
    `Server.Dictionary`. */
module StudyPanel {
  import opened Opt
  import opened JsText
  import StrongsMarkup
  import Server

  datatype PanelTab = DictionaryTab | MapTab | NotesTab

  datatype Panel = Panel(tab: PanelTab, searchTerm: string, entry: Option<Server.Entry>)

  function InitialPanel(): (p: Panel)
    ensures p.tab == DictionaryTab && p.searchTerm == "" && p.entry.None?
  {
    Panel(DictionaryTab, "", None)
  }

  // ---------------------------------------------------------------------
  // Code normalisation
  // ---------------------------------------------------------------------

  /** `/^[HG]\d+/i`: an `H` or `G` in either case, then at least one digit;
      anything may follow. */
  predicate HasCodePrefix(t: string) {
    |t| >= 2 && (t[0] == 'H' || t[0] == 'h' || t[0] == 'G' || t[0] == 'g') && IsDigit(t[1])
  }

  /** A term with a code prefix is used as it is; any other term is taken
      as a Hebrew number and gets an `H` in front. */
  function Normalize(term: string): (code: string)
    ensures HasCodePrefix(term) ==> code == term
    ensures !HasCodePrefix(term) ==> code == "H" + term
    ensures |term| >= 1 && IsDigit(term[0]) ==> HasCodePrefix(code) && code[0] == 'H'
  {
    if HasCodePrefix(term) then term else "H" + term
  }

  /** Normalising again changes nothing exactly when the first pass
      produced a code prefix, which happens for terms with a prefix and for
      terms that start with a digit; any other term, such as `x`, gets a
      second `H`. */
  lemma NormalizeStable(t: string)
    ensures HasCodePrefix(Normalize(t)) <==> HasCodePrefix(t) || (|t| >= 1 && IsDigit(t[0]))
    ensures Normalize(Normalize(t)) == Normalize(t) <==> HasCodePrefix(Normalize(t))
  {
    if !HasCodePrefix(Normalize(t)) {
      assert |Normalize(Normalize(t))| == |Normalize(t)| + 1;
    }
  }

  /** `7225` becomes `H7225`; `g746` is left alone (the server upper-cases
      it). */
  lemma NormalizeExamples()
    ensures Normalize("7225") == "H7225"
    ensures Normalize("g746") == "g746"
  {
  }

  /** A code taken from a Strong's marker is looked up as it is: the
      normalisation keeps it and the server's upper-casing keeps it. */
  lemma MarkerCodeLooksUpItself(code: string)
    requires StrongsMarkup.IsCode(code)
    ensures Normalize(code) == code
    ensures Upper(code) == code
  {
    assert IsDigit(code[1]);
    assert forall i :: 0 <= i < |code| ==> UpperChar(code[i]) == code[i] by {
      forall i | 0 <= i < |code|
        ensures UpperChar(code[i]) == code[i]
      {
        if i > 0 {
          assert code[1..][i - 1] == code[i];
        }
      }
    }
  }

  // ---------------------------------------------------------------------
  // The lookup
  // ---------------------------------------------------------------------

  /** What started the lookup: the Enter key in the search box, the search
      button, or a code sent over from the Reader. */
  datatype Trigger = EnterKey | SearchButton | External(code: string)

  /** The dictionary request a lookup sends: none, or the code in the
      request path. `Throws` is a lookup that fails before sending. */
  datatype Request = NoLookup | Throws | Fetch(code: string)

  /** The term looked up, `codeToSearch || searchTerm`: a non-empty
      external code, or else the search box. */
  function Term(p: Panel, trigger: Trigger): string {
    match trigger
    case External(code) => if code != "" then code else p.searchTerm
    case _ => p.searchTerm
  }

  /** `handleSearch` as the panel wires it. The search button passes its
      click event as `codeToSearch`; the event is truthy, so it becomes the
      term, and `term.match` on it throws before any request is sent. */
  function RequestAsWritten(p: Panel, trigger: Trigger): (l: Request)
    ensures trigger == SearchButton ==> l == Throws
    ensures trigger != SearchButton ==> (l.NoLookup? <==> Term(p, trigger) == "")
    ensures l.Fetch? ==> l.code == Normalize(Term(p, trigger))
  {
    if trigger == SearchButton then Throws
    else if Term(p, trigger) == "" then NoLookup
    else Fetch(Normalize(Term(p, trigger)))
  }

  /** `handleSearch` with the search button calling it without arguments,
      like the Enter key: an empty term sends nothing, any other term
      sends its normalised code. */
  function RequestFor(p: Panel, trigger: Trigger): (l: Request)
    ensures !l.Throws?
    ensures l.NoLookup? <==> Term(p, trigger) == ""
    ensures l.Fetch? ==> l.code == Normalize(Term(p, trigger))
  {
    if Term(p, trigger) == "" then NoLookup
    else Fetch(Normalize(Term(p, trigger)))
  }

  /** The answer arrives: a found entry is shown, and for an external
      lookup the search box takes the normalised code and the dictionary
      tab opens; a non-OK answer clears the entry. */
  function Answer(p: Panel, trigger: Trigger, code: string, response: Server.DictionaryResponse): (r: Panel)
    ensures response.NotFound? ==> r == p.(entry := None)
    ensures response.Found? ==> r.entry == Some(response.entry)
    ensures response.Found? && trigger.External? ==> r.searchTerm == code && r.tab == DictionaryTab
    ensures response.Found? && !trigger.External? ==> r.searchTerm == p.searchTerm && r.tab == p.tab
  {
    match response
    case NotFound(_, _) => p.(entry := None)
    case Found(e) =>
      if trigger.External? then Panel(DictionaryTab, code, Some(e)) else p.(entry := Some(e))
  }

  /** A whole lookup against the server's store; a lookup that sends
      nothing, or throws, leaves the panel as it was. */
  function Run(p: Panel, l: Request, trigger: Trigger, st: Server.Store): Panel {
    match l
    case Fetch(code) => Answer(p, trigger, code, Server.Dictionary(st, code))
    case _ => p
  }

  /** The lookup as wired: the search button leaves the panel as it was,
      any other trigger searches. */
  function SearchAsWritten(p: Panel, trigger: Trigger, st: Server.Store): (r: Panel)
    ensures trigger == SearchButton ==> r == p
    ensures trigger != SearchButton && Term(p, trigger) == "" ==> r == p
    ensures trigger != SearchButton && Term(p, trigger) != "" ==>
              (r.entry.Some? <==> Upper(Normalize(Term(p, trigger))) in st.dictionary)
  {
    Run(p, RequestAsWritten(p, trigger), trigger, st)
  }

  /** The corrected lookup finds the entry stored under the upper-cased,
      normalised term, and clears the entry when there is none. */
  function Search(p: Panel, trigger: Trigger, st: Server.Store): (r: Panel)
    ensures Term(p, trigger) == "" ==> r == p
    ensures Term(p, trigger) != "" ==>
              (r.entry.Some? <==> Upper(Normalize(Term(p, trigger))) in st.dictionary)
    ensures r.entry.Some? && Term(p, trigger) != "" ==>
              r.entry.value == st.dictionary[Upper(Normalize(Term(p, trigger)))]
  {
    Run(p, RequestFor(p, trigger), trigger, st)
  }

  /** As written, the search button never looks anything up, even when
      the term is in the dictionary; the corrected wiring finds it. */
  lemma SearchButtonIgnored(p: Panel, st: Server.Store)
    ensures SearchAsWritten(p, SearchButton, st) == p
    ensures p.searchTerm != "" && Upper(Normalize(p.searchTerm)) in st.dictionary ==>
              Search(p, SearchButton, st).entry == Some(st.dictionary[Upper(Normalize(p.searchTerm))])
  {
  }

  /** Typing `7225` and clicking the button: nothing is found as written,
      while `H7225` is found once the button is wired like the Enter key. */
  lemma SearchButtonCounterexample(e: Server.Entry)
    ensures SearchAsWritten(Panel(DictionaryTab, "7225", None), SearchButton,
                            Server.Store(map[], map[], map["H7225" := e])).entry == None
    ensures Search(Panel(DictionaryTab, "7225", None), SearchButton,
                   Server.Store(map[], map[], map["H7225" := e])).entry == Some(e)
  {
    assert Normalize("7225") == "H7225";
    assert Upper("H7225") == "H7225";
  }

  /** The Enter key and an external code behave the same in both
      wirings. */
  lemma OnlyTheButtonDiffers(p: Panel, trigger: Trigger, st: Server.Store)
    requires trigger != SearchButton
    ensures SearchAsWritten(p, trigger, st) == Search(p, trigger, st)
  {
  }

  // ---------------------------------------------------------------------
  // A code sent over from the Reader
  // ---------------------------------------------------------------------

  /** The effect that consumes `externalCode`: a non-empty code is looked
      up and then cleared; `None` or an empty code does nothing. The
      second component is the external code afterwards. */
  function ConsumeExternal(p: Panel, external: Option<string>, st: Server.Store): (r: (Panel, Option<string>))
    ensures external.Some? && external.value != "" ==> r == (Search(p, External(external.value), st), None)
    ensures external.None? || external.value == "" ==> r == (p, external)
    ensures r.1 == None || r.1 == Some("")
  {
    match external
    case Some(code) =>
      if code != "" then (Search(p, External(code), st), None) else (p, external)
    case None => (p, None)
  }

  /** A code is consumed once: running the effect again does nothing. */
  lemma ConsumedOnce(p: Panel, external: Option<string>, st: Server.Store)
    ensures var (q, rest) := ConsumeExternal(p, external, st);
            ConsumeExternal(q, rest, st) == (q, rest)
  {
  }

  /** A marker's code that is in the dictionary opens its entry on the
      dictionary tab, with the code in the search box. */
  lemma MarkerCodeOpensEntry(p: Panel, code: string, st: Server.Store)
    requires StrongsMarkup.IsCode(code) && code in st.dictionary
    ensures ConsumeExternal(p, Some(code), st).0 == Panel(DictionaryTab, code, Some(st.dictionary[code]))
    ensures ConsumeExternal(p, Some(code), st).1 == None
  {
    MarkerCodeLooksUpItself(code);
  }

  // ---------------------------------------------------------------------
  // Saving the study pad to the library
  // ---------------------------------------------------------------------

  /** The body of the library POST. */
  datatype SaveRequest = SaveRequest(email: Option<string>, title: string, content: string)

  /** `handleSaveToLibrary`: nothing is sent for a missing or blank pad, or
      when the title prompt is cancelled (`None`) or answered with an empty
      title; otherwise the pad is sent as it is, untrimmed. */
  function SaveToLibrary(notes: Option<string>, title: Option<string>, email: Option<string>): (r: Option<SaveRequest>)
    ensures r.Some? <==> notes.Some? && !AllSpace(notes.value) && title.Some? && title.value != ""
    ensures r.Some? ==> r.value == SaveRequest(email, title.value, notes.value)
  {
    if notes.None? || notes.value == "" || Trim(notes.value) == "" then None
    else if title.None? || title.value == "" then None
    else
      TrimEmptyIff(notes.value);
      Some(SaveRequest(email, title.value, notes.value))
  }
}
